=== FILE: README.md ===
# LiveKit WebRTC transport configuration, modelled in Dafny

This project models the core of `pkg/rtc/config.go` in LiveKit's server. That file builds
the server's WebRTC transport configuration. It also discovers the NAT 1:1 IP mappings,
that is, the external IP that remote peers should use for each local IP. The model
covers the following, each as pure functions over immutable datatypes:

- **Filters.** The interface-name filter and the IP/CIDR filter (`filters.dfy`). A
  non-empty include list admits exactly its matches. Otherwise a value is refused
  exactly when an exclude matches it. An IP filter cannot be built if any entry is not
  a CIDR block.
- **Direction profiles** (`profiles.dfy`). The constant publisher profile, and the
  subscriber profile whose bandwidth estimator follows the send-side BWE flag.
- **NAT 1:1 discovery** (`probing.dfy`, `collection.dfy`, `resolver.dfy`):
  - choosing the candidate ports;
  - the per-local-IP probe loop over abstract STUN outcomes;
  - the collector's adaptive deadline, 5 s and then 1 s after the first result;
  - the first-writer-wins fold keyed by external IP;
  - the self-mapping of local IPs left unresolved;
  - rendering the map as `"external/local"` strings.
- **The builder** (`builder.dfy`). The decisions inside `NewWebRTCConfig`:
  - the NAT strategy (discover, static external IP, or none);
  - the packet-buffer default;
  - UDP/TCP network types and multiplexer parameters, with their error paths;
  - lite ICE versus STUN servers;
  - the `stun:` URLs, and the assembly of the result.
- **Concrete runs** (`scenarios.dfy`).

Concurrency and I/O become inputs:
- A `World` supplies the local IP enumeration and the STUN request as a function of
  (servers, local IP, port).
- It also supplies the values `rand.Intn` returned, and a schedule. The schedule says
  when each probe's result reached the collector, in channel order.
- A probe whose local IP is filtered out, or that did not resolve, sends nothing.

Some behaviour of the code is easy to misread; the model follows the code:

- If no result reaches the collector, discovery returns nil. It does not return one
  self-mapping per local IP, even when local IPs exist (lines 372-375).
- The self-mapping pass walks the unfiltered local IP list (line 378). So local IPs
  that the IP filter excluded from probing are still mapped to themselves.
- "Every local IP appears exactly once as a value" holds only under extra conditions:
  - the local IPs are distinct;
  - each probe delivers at most once. The program always meets this, because each probe
    sends once and returns (lines 336-337). The model's schedule input has to promise it
    (`DistinctSources`);
  - no collected external IP is a local IP that no collected pair maps to.

  When the last condition fails, the self-mapping overwrites the discovered pair
  (`Scenarios.SelfMappingOverwritesDiscovery`).
- With a configured ICE range, both bounds are truncated to 16 bits, and the width is
  their 16-bit difference (line 308). The probed ports are then drawn from
  `[start, start + width)`:
  - When the truncated end is above the start, that is `[start, end)`.
  - When the truncated end is below the start, the width wraps and the ports come from
    `[start, end + 65536)`. Such ports can exceed 65535.
  - If the truncated bounds are equal, `rand.Intn(0)` panics. The model reports that
    as the `SamplerPanic` error.

## Model

| member | source | states |
|---|---|---|
| `Filters.AnyMatch` | pkg/rtc/config.go:403-410 | The in-order scan of a pattern list succeeds iff some pattern matches the value. |
| `Filters.Admits` | pkg/rtc/config.go:401-421 | With includes, a value passes iff some include matches it, and excludes are ignored. Without includes, it passes iff no exclude matches it. So with both lists empty, everything passes. |
| `Filters.InterfaceFilter` | pkg/rtc/config.go:398-422 | With includes, an interface name passes iff it is listed there. Otherwise it passes iff it is not among the excludes. |
| `Filters.IPAdmits` | pkg/rtc/config.go:447-465 | With include blocks, an address passes iff some include block contains it. Otherwise it passes iff no exclude block contains it. |
| `Filters.ParseBlocks` | pkg/rtc/config.go:428-438 | Parsing succeeds iff every entry parses, and then yields one block per entry, in order. A failure names the first entry that does not parse. |
| `Filters.IPFilterFromConf` | pkg/rtc/config.go:424-466 | The filter is built iff every include and exclude entry is a CIDR block. Includes are parsed before excludes. The error names the first bad entry, and no filter is returned with it. |
| `Profiles.Publisher` | pkg/rtc/config.go:195-223 | Strict ACKs are always on. The profile signals send-side estimation (transport-wide CC extension and feedback) and never REMB. FIR, NACK and PLI are offered. |
| `Profiles.Subscriber` | pkg/rtc/config.go:225-245 | Strict ACKs follow the configuration. With BWE on, the video extensions are [dependency descriptor, transport-wide CC] and the feedback is [fir, nack, pli, transport-cc]. With BWE off, abs-send-time and goog-remb take those places. The two estimators never co-occur, and each one's extension is offered iff its feedback is. |
| `Probing.RangeWidth` | pkg/rtc/config.go:306-308 | The sampled width is the 16-bit difference of the truncated bounds. Adding it to the start modulo 65536 gives the end. It is end - start when end >= start, and end + 65536 - start when the truncated end is below the start. |
| `Probing.CandidatePorts` | pkg/rtc/config.go:304-314 | A configured range gives exactly 5 ports in [start, start + width). That is [start, end) when start < end, and [start, end + 65536) when the truncated end is below the start. Otherwise a non-zero UDP port gives exactly [UDPPort], and everything else gives [0]. Equal truncated bounds are the rand.Intn panic. |
| `Probing.Occurs` | pkg/rtc/config.go:329 | Substring search: true iff the pattern occurs at some index of the text. |
| `Probing.ProbeLocal` | pkg/rtc/config.go:326-339 | The probe ends Exhausted iff every port answered "address already in use". It is Resolved(e) only if the first attempt that was not "in use" replied e. It is Aborted only if that attempt failed with another error. |
| `Probing.FirstDecisiveAttemptDecides` | pkg/rtc/config.go:326-338 | The first attempt that is not "address already in use" decides the probe. A reply resolves it and any other error aborts it. Later ports are never consulted. |
| `Collection.Receive` | pkg/rtc/config.go:348-368 | The select loop receives the longest prefix of deliveries that arrive before the active deadline. Once collecting, the first delivery it leaves out is at or past the deadline. |
| `Collection.Collected` | pkg/rtc/config.go:343-368 | Something is received iff the first delivery beats 5 s. Every later received delivery arrives within 1 s of the first, and the first one left out does not. So nothing received arrives after 6 s. |
| `Collection.Dedup` | pkg/rtc/config.go:356-363 | The fold adds exactly the collected external IPs as keys. A pair already in the map is never overwritten. |
| `Collection.DedupFirstWriterWins` | pkg/rtc/config.go:356-363 | For a new external IP, the map keeps the local IP of the first mapping that names it. Later duplicates are dropped. |
| `Collection.MapUnresolved` | pkg/rtc/config.go:377-389 | The pass adds only local IPs as keys, and every entry it touches becomes a self-mapping. Entries whose key is not a local IP are unchanged, and no key is removed. |
| `Collection.MapUnresolvedInjective` | pkg/rtc/config.go:377-389 | If no two keys share a value before the pass, none do after it, whatever the local IP list. |
| `Collection.MapUnresolvedCovers` | pkg/rtc/config.go:377-389 | Suppose no collected external IP is a local IP left unmapped. Then every collected pair survives, and every local IP ends up as a value. |
| `Collection.EntryRoundTrip` | pkg/rtc/config.go:393 | If the external IP has no '/', splitting "external/local" at the first '/' gives back the pair. |
| `Collection.EntriesReadBack` | pkg/rtc/config.go:391-394 | Every map entry is rendered, and every rendered string reads back as an entry of the map. No two strings share an external IP. A non-empty map renders to a non-empty list. |
| `Resolver.Deliver` | pkg/rtc/config.go:318-337 | A probe sends (external, its local IP) only if its local IP passes the filter and its probe resolved to that external IP. Otherwise it sends nothing. |
| `Resolver.Deliveries` | pkg/rtc/config.go:318-341 | The channel holds at most one delivery per scheduled arrival. Each delivery is what some scheduled probe sends. |
| `Resolver.DeliveriesComplete` | pkg/rtc/config.go:318-337 | Every scheduled arrival whose local IP passed the filter and whose probe resolved puts its (external, local) pair on the channel. |
| `Resolver.DeliveriesInOrder` | pkg/rtc/config.go:336-351 | Take two arrivals that both deliver. The earlier one's pair comes earlier on the channel. |
| `Resolver.FirstArrivalMapped` | pkg/rtc/config.go:343-389 | Suppose the first arrival delivers before 5 s. Then its external IP is a key of the final map, bound to its local IP, or to itself when it is a local IP the self-mapping pass claims. When it is not a local IP, it is bound to the local IP. |
| `Resolver.Nat1To1Mapping` | pkg/rtc/config.go:372-389 | The result is nil iff nothing was received. Otherwise every received external IP is a key, and every key is a received external IP or a local IP. Each entry is a self-mapping or the first received pair for its key. Without a clash, every local IP is a value and every received pair survives. |
| `Resolver.GetNAT1to1IPs` | pkg/rtc/config.go:289-396 | A failed local-IP enumeration is returned as an error. The sampler panics iff the port choice does. A successful result is nil iff nothing was received before the deadline, and is never an empty list. Otherwise it is exactly the final map rendered as one "external/local" string per entry. Once the local IPs are enumerated and the ports can be sampled, discovery never fails: STUN errors and silent probes only shrink the result. |
| `Resolver.FirstArrivalReported` | pkg/rtc/config.go:289-396 | End to end: suppose the first arrival's probe delivers before 5 s and its external IP is not a local IP. Then the discovery output contains that "external/local" pair. |
| `Resolver.DeliveriesDistinct` | pkg/rtc/config.go:302-341 | Suppose the local IPs are distinct and each probe's result arrives at most once. Then no two deliveries carry the same local IP. |
| `Resolver.DedupInjective` | pkg/rtc/config.go:356-363 | Folding mappings whose local IPs are distinct and new keeps the map injective: no two keys share a value. |
| `Resolver.ResolvedExactlyOnce` | pkg/rtc/config.go:343-389 | Assume distinct local IPs, one delivery per probe, no clash, and at least one received result. Then every local IP appears exactly once as a value of the final map. |
| `Resolver.NoResolvedProbeMeansNil` | pkg/rtc/config.go:372-375 | If no admitted local IP's probe resolves, nothing is received and the result is nil, not a set of self-mappings. |
| `Scenarios.OneAnswerOneSilent` | pkg/rtc/config.go:289-396 | Local IPs 10.0.0.1 and 10.0.0.2. The first is answered as 203.0.113.5 after 200 ms and the second never answers. The result is {"203.0.113.5/10.0.0.1", "10.0.0.2/10.0.0.2"}. |
| `Scenarios.SelfMappingOverwritesDiscovery` | pkg/rtc/config.go:377-389 | 10.0.0.1 is discovered behind 203.0.113.5, which is also an unresolved local IP. The self-mapping replaces the discovered pair, and 10.0.0.1 vanishes from the result. |
| `Builder.SelectNatStrategy` | pkg/rtc/config.go:99-118 | Discovery iff an external IP is given and automatic external IPs are on. The static external IP iff one is given, automatic external IPs are off, and a node IP was set by hand. No mapping in every other case. |
| `Builder.SelectUdp` | pkg/rtc/config.go:128-161 | Forced TCP means no UDP. A configured range takes precedence and is rejected when max < min. Only the fixed-UDP-port branch builds a multiplexer: 16 MiB buffers, the loopback flag and both filters. With a fixed port and no range, the result is exactly that multiplexer when it binds, and its bind error otherwise. Default sockets are used iff there is neither a range nor a port. A failure is either the rejected range or the multiplexer's own bind error. |
| `Builder.SelectTransport` | pkg/rtc/config.go:128-188 | UDP4/UDP6 are present iff TCP is not forced. TCP4/TCP6 and a TCP mux (50 packets, 4 MiB) are present iff a TCP port is set. The error "TCP forced but not configured" occurs exactly when TCP is forced without a port. The setup fails exactly when the UDP part fails, the TCP port is set and its listener does not bind, or TCP is forced without a port; each error is that cause's own. The read-buffer check runs iff a UDP mux was built outside development mode. |
| `Builder.IceServerForStunServers` | pkg/rtc/config.go:281-287 | One URL per server, in order, each being "stun:" followed by the server. |
| `Builder.StunUrlsRoundTrip` | pkg/rtc/config.go:281-287 | Dropping the "stun:" scheme from the URLs gives back exactly the configured server list. |
| `Builder.SelectIceRole` | pkg/rtc/config.go:247-259 | Lite iff lite ICE is requested. STUN-assisted iff it is not, no node IP is set and automatic external IPs are off. STUN-assisted uses the configured servers, else the defaults. |
| `Builder.IceServersFor` | pkg/rtc/config.go:254-258 | There is one ICE server entry iff STUN servers are used, and none otherwise. That entry is the "stun:" URL list of the chosen servers. |
| `Builder.BuildIPFilter` | pkg/rtc/config.go:85-93 | A filter is installed iff some IP include or exclude is configured, and it is the one the IP lists build. The build fails iff some entry is not a CIDR block. |
| `Builder.Admitter` | pkg/rtc/config.go:318-321 | With no IP filter, every local IP is probed. With a filter, a local IP is probed iff the filter admits its parsed address. |
| `Builder.ResolveNat` | pkg/rtc/config.go:99-118 | The engine gets NAT IPs iff the strategy is not "none", and they are never empty. A static external IP gives {externalIP}. Under discovery, the build fails iff discovery does. The returned list is exactly what discovery returned, and the engine gets that list, or {externalIP} when discovery found nothing. Only discovery can fail. |
| `Builder.Assemble` | pkg/rtc/config.go:191-273 | Packet buffer 500 when unset. The publisher is the publisher profile, and the subscriber is the subscriber profile for the configured strict-ACK and BWE flags. The ICE servers are the "stun:" entry of the configured or default servers in STUN-assisted mode, and empty otherwise (lite mode included). mDNS is disabled iff it is off. The returned UDP mux is the one the engine uses. |
| `Builder.NewWebRTCConfig` | pkg/rtc/config.go:70-274 | A bad CIDR entry always fails the build, and so does forced TCP without a port. A built configuration has UDP iff TCP is not forced and TCP iff a TCP port is set. Its publisher and subscriber are the two direction profiles, and its ICE servers are the "stun:" entry of the configured or default servers in STUN-assisted mode, and empty otherwise. The engine's NAT IPs are set iff the strategy is not "none"; under discovery, the returned NAT IPs are exactly the discovery result for the configured servers, ports and IP filter. The configuration owns the UDP mux the engine uses. |
| `Builder.EngineSettingsBuilt` | pkg/rtc/config.go:79-118 | A built configuration's engine holds the IP filter that was built and the interface filter iff an interface list is configured (lines 82, 92). Its loopback flag is the configured one (line 192). A static external IP gives the engine {externalIP}, and so does a discovery that found nothing. The returned NAT IPs are nil unless discovery ran. |
| `Builder.TransportFailsExactly` | pkg/rtc/config.go:128-188 | Whatever the filters, the transport setup fails iff the range is inverted, the fixed-port multiplexer or the TCP listener does not bind, or TCP is forced without a port. |
| `Builder.BuildFailsExactly` | pkg/rtc/config.go:70-188 | The build fails iff a CIDR entry does not parse, discovery runs and cannot enumerate the local IPs or sample the range, or the transport is rejected. So every other configuration is built. |
| `Builder.BuildErrorCauses` | pkg/rtc/config.go:86-188 | Every failure names its cause: a filter or discovery error, the rejected range, the bind error actually reported by the UDP multiplexer or TCP listener, or forced TCP without a port. |
| `Builder.StunServersAdvertised` | pkg/rtc/config.go:247-259 | A configuration built in STUN-assisted mode advertises one ICE server. Stripping "stun:" from its URLs gives back the configured STUN servers, or the defaults when none are configured. |
| `Builder.NewWebRTCConfigAsWritten` | pkg/rtc/config.go:124-156 | As written, a built configuration never holds a UDP mux. It fails exactly when the corrected builder does. |
| `Builder.UdpMuxShadowed` | pkg/rtc/config.go:151-156 | With only UDP port 7882 configured, the engine is given a multiplexer but the configuration as written returns none. |
| `Builder.UdpMuxOwned` | pkg/rtc/config.go:128-161 | A successful corrected build returns a UDP multiplexer iff it built one: TCP not forced, no ICE port range, and a fixed UDP port. That multiplexer is bound to the configured port with 16 MiB read and write buffers. |

## Left out

- Goroutines, `sync.WaitGroup`, the `context` cancellation and the results channel (lines 316-341, 369-370): concurrency. The channel's contents are the schedule input, in arrival order.
- Wall-clock time (lines 343-368): the timer is integer milliseconds. A result that arrives exactly at the deadline is treated as too late, because Go's `select` picks between two ready cases at random.
- `config.GetExternalIP`: STUN binding requests (RFC 5389) are network I/O. It becomes the `probe` function, which gives one outcome per (servers, local IP, port). The log lines that tell the two failure kinds apart are not modelled.
- `config.GetLocalIPAddresses`: OS interface enumeration. Its result, or its error, is an input. How the loopback flag affects it is not part of this model.
- `rand.Intn`: randomness. The values it returned are an input, constrained to its documented range.
- Go map iteration order (line 392): the output list is modelled as a set of strings.
- `net.ParseCIDR`, `net.ParseIP` and `IPNet.Contains`: foreign library calls. Parsing is a parameter. Containment is a prefix match on address bits of the same length. IPv4-in-IPv6 address forms are not modelled.
- Builder.Admitter: `net.ParseIP` returns nil for text that is not an IP, and no block contains nil. The model leaves that case to the unconstrained `addressOf` parameter, so it does not promise that such a local IP is refused by a filter with includes.
- `config.DefaultStunServers` is not part of this model. It is a parameter.
- The pion setting-engine setters, `ice.NewMultiUDPMuxFromPort`, `net.ListenTCP` and `ice.NewTCPMuxDefault`: socket side effects. The engine is a record of what was set, and bind failures are inputs. The rule that `SetEphemeralUDPPortRange` rejects max < min is the library's, and the model assumes it.
- Logger factory, `logger.*` calls, the `SDPSemantics` constant and the body of `checkUDPReadBuffer`: these are logging or external. Only the decision to run the read-buffer check is modelled.
- `SetBufferFactory` (lines 276-279): a late mutation of the returned value that makes no decision.
- The header-extension URIs and feedback type names: these are library constants (`sdp`, `webrtc`, the dependency descriptor package). The profiles name them with enumerations, and their string values are not modelled.
- A panic inside `rand.Intn` would crash the process. The model returns it as the `SamplerPanic` error instead.

## Findings

| source | as written | input that shows it | evidently intended | confidence | as-written member | corrected member |
|---|---|---|---|---|---|---|
| pkg/rtc/config.go:151 | `udpMux, err := ice.NewMultiUDPMuxFromPort(...)` declares a new `udpMux` inside the branch. This shadows the one declared at line 124, so the returned `WebRTCConfig.UDPMux` (line 267) is always nil, while the setting engine uses the mux (line 156). | UDPPort = 7882, no ICE port range, ForceTCP off | The returned configuration holds the multiplexer it created, so that its owner can close it. The TCP listener at line 169 is assigned with `=` for the same purpose. | high; not executed | `Builder.NewWebRTCConfigAsWritten`, `Builder.UdpMuxShadowed` | `Builder.NewWebRTCConfig`, `Builder.UdpMuxOwned` |

=== FILE: builder.dfy ===
/**
  The transport configuration builder (NewWebRTCConfig): it builds the
  filters, picks the NAT 1:1 strategy (running discovery when asked to),
  chooses UDP/TCP network types and multiplexers, picks lite ICE or STUN
  servers, and assembles the publisher and subscriber profiles.
 */
module Builder {
  import opened Wrappers
  import opened Filters
  import opened Profiles
  import opened Probing
  import opened Resolver

  /** Receiver packet buffer used when the configuration leaves it at zero. */
  const DefaultPacketBufferSize := 500

  /** Read and write buffer size of the shared UDP multiplexer, in bytes. */
  const UdpMuxBufferSize := 16_777_216

  /** Read buffer of the TCP multiplexer, in packets. */
  const TcpReadBufferPackets := 50

  /** Write buffer of the TCP multiplexer, in bytes. */
  const TcpWriteBufferBytes := 4 * 1024 * 1024

  /** The RTC section of the server configuration, as far as the builder reads it. */
  datatype RTCConfig = RTCConfig(
    interfaces: Lists,
    ips: Lists,
    useMDNS: bool,
    useExternalIP: bool,
    nodeIP: string,
    nodeIPAutoGenerated: bool,
    packetBufferSize: int,
    forceTCP: bool,
    icePortRangeStart: nat,
    icePortRangeEnd: nat,
    udpPort: nat,
    tcpPort: nat,
    enableLoopbackCandidate: bool,
    strictACKs: bool,
    useSendSideBWE: bool,
    useICELite: bool,
    stunServers: seq<string>)

  /** The server configuration: the RTC section and the development-mode flag. */
  datatype Config = Config(rtc: RTCConfig, development: bool)

  /** The port settings NAT discovery and the UDP setup read. */
  function PortsOf(rtc: RTCConfig): PortConfig
  {
    PortConfig(rtc.icePortRangeStart, rtc.icePortRangeEnd, rtc.udpPort)
  }

  /**
    The collaborators the builder calls into: CIDR and IP parsing, the
    built-in STUN server list, NAT discovery's view of the network, and the
    outcome of binding the UDP multiplexer and the TCP listener.
   */
  datatype Environment = Environment(
    parseCIDR: string -> Option<Block>,
    addressOf: string -> Address,
    defaultStunServers: seq<string>,
    discovery: World,
    udpMuxError: Option<string>,
    tcpListenError: Option<string>)

  /** Why the configuration could not be built. */
  datatype ConfigError =
    | FilterFailed(filterError: FilterError)
    | DiscoveryFailed(resolveError: ResolveError)
    | PortRangeRejected(min: nat, max: nat)
    | UdpMuxFailed(message: string)
    | TcpListenFailed(message: string)
    | TCPForcedNotConfigured

  /** How NAT 1:1 IPs are chosen. */
  datatype NatStrategy = AutoDiscover | StaticHint | NoMapping

  /**
    The NAT 1:1 strategy: discovery when an external IP is known and automatic
    external IPs are requested; the external IP itself when it is known and a
    node IP was set by hand; nothing otherwise.
   */
  function SelectNatStrategy(rtc: RTCConfig, externalIP: string): (s: NatStrategy)
    ensures s == AutoDiscover <==> externalIP != "" && rtc.useExternalIP
    ensures s == StaticHint <==> externalIP != "" && !rtc.useExternalIP && rtc.nodeIP != "" && !rtc.nodeIPAutoGenerated
    ensures s == NoMapping <==> externalIP == "" || (!rtc.useExternalIP && (rtc.nodeIP == "" || rtc.nodeIPAutoGenerated))
  {
    if externalIP != "" && (rtc.useExternalIP || (rtc.nodeIP != "" && !rtc.nodeIPAutoGenerated)) then
      if rtc.useExternalIP then AutoDiscover else StaticHint
    else NoMapping
  }

  /** The four ICE network types. */
  datatype NetworkType = UDP4 | UDP6 | TCP4 | TCP6

  /** Options of the UDP multiplexer bound to the fixed UDP port. */
  datatype UdpMuxParams = UdpMuxParams(
    port: nat,
    readBufferSize: nat,
    writeBufferSize: nat,
    loopback: bool,
    ipFilter: Option<IPFilter>,
    interfaceFilter: Option<Lists>)

  /** How UDP candidates are gathered. */
  datatype UdpSetup =
    | NoUdp                                // TCP is forced
    | EphemeralRange(min: nat, max: nat)   // ephemeral ports restricted to the ICE range
    | SharedMux(mux: UdpMuxParams)         // one multiplexer on the fixed UDP port
    | DefaultSockets                       // ephemeral ports, unrestricted

  /** Options of the TCP multiplexer. */
  datatype TcpMuxParams = TcpMuxParams(port: nat, readBufferSize: nat, writeBufferSize: nat)

  /** The transport part of the setting engine. */
  datatype Transport = Transport(
    networkTypes: seq<NetworkType>,
    udp: UdpSetup,
    tcp: Option<TcpMuxParams>,
    readBufferCheck: bool)

  /** The UDP part: a configured range wins over the fixed port; only the fixed port gets a multiplexer. */
  function SelectUdp(conf: Config, ipFilter: Option<IPFilter>, ifFilter: Option<Lists>, udpMuxError: Option<string>): (r: Result<UdpSetup, ConfigError>)
    ensures conf.rtc.forceTCP ==> r == Success(NoUdp)
    ensures !conf.rtc.forceTCP && RangeConfigured(PortsOf(conf.rtc)) ==>
              var min := ToUint16(conf.rtc.icePortRangeStart);
              var max := ToUint16(conf.rtc.icePortRangeEnd);
              r == if max < min then Failure(PortRangeRejected(min, max)) else Success(EphemeralRange(min, max))
    ensures r.Success? && r.value.SharedMux? ==>
              && !conf.rtc.forceTCP && !RangeConfigured(PortsOf(conf.rtc)) && conf.rtc.udpPort != 0
              && r.value.mux == UdpMuxParams(conf.rtc.udpPort, UdpMuxBufferSize, UdpMuxBufferSize,
                                             conf.rtc.enableLoopbackCandidate, ipFilter, ifFilter)
    ensures r.Success? && r.value.DefaultSockets? <==>
              !conf.rtc.forceTCP && !RangeConfigured(PortsOf(conf.rtc)) && conf.rtc.udpPort == 0
    ensures !conf.rtc.forceTCP && !RangeConfigured(PortsOf(conf.rtc)) && conf.rtc.udpPort != 0 ==>
              r == match udpMuxError
                   case Some(e) => Failure(UdpMuxFailed(e))
                   case None => Success(SharedMux(UdpMuxParams(conf.rtc.udpPort, UdpMuxBufferSize, UdpMuxBufferSize,
                                                               conf.rtc.enableLoopbackCandidate, ipFilter, ifFilter)))
    ensures r.Failure? ==> r.error.PortRangeRejected? || (r.error.UdpMuxFailed? && udpMuxError == Some(r.error.message))
  {
    var rtc := conf.rtc;
    if rtc.forceTCP then Success(NoUdp)
    else if RangeConfigured(PortsOf(rtc)) then
      var min := ToUint16(rtc.icePortRangeStart);
      var max := ToUint16(rtc.icePortRangeEnd);
      if max < min then Failure(PortRangeRejected(min, max)) else Success(EphemeralRange(min, max))
    else if rtc.udpPort != 0 then
      match udpMuxError
      case Some(e) => Failure(UdpMuxFailed(e))
      case None =>
        Success(SharedMux(UdpMuxParams(rtc.udpPort, UdpMuxBufferSize, UdpMuxBufferSize,
                                       rtc.enableLoopbackCandidate, ipFilter, ifFilter)))
    else Success(DefaultSockets)
  }

  /**
    Network types and multiplexers: UDP unless TCP is forced, TCP when a TCP
    port is set, and an error exactly when TCP is forced but has no port.
   */
  function SelectTransport(conf: Config, ipFilter: Option<IPFilter>, ifFilter: Option<Lists>, env: Environment): (r: Result<Transport, ConfigError>)
    ensures r == Failure(TCPForcedNotConfigured) <==> conf.rtc.forceTCP && conf.rtc.tcpPort == 0
    ensures r.Failure? <==>
              || SelectUdp(conf, ipFilter, ifFilter, env.udpMuxError).Failure?
              || (conf.rtc.tcpPort != 0 && env.tcpListenError.Some?)
              || (conf.rtc.forceTCP && conf.rtc.tcpPort == 0)
    ensures r.Failure? ==>
              || r.error.PortRangeRejected?
              || (r.error.UdpMuxFailed? && env.udpMuxError == Some(r.error.message))
              || (r.error.TcpListenFailed? && env.tcpListenError == Some(r.error.message))
              || (r.error == TCPForcedNotConfigured && conf.rtc.forceTCP && conf.rtc.tcpPort == 0)
    ensures r.Success? ==> (UDP4 in r.value.networkTypes <==> !conf.rtc.forceTCP)
    ensures r.Success? ==> (UDP6 in r.value.networkTypes <==> !conf.rtc.forceTCP)
    ensures r.Success? ==> (TCP4 in r.value.networkTypes <==> conf.rtc.tcpPort != 0)
    ensures r.Success? ==> (TCP6 in r.value.networkTypes <==> conf.rtc.tcpPort != 0)
    ensures r.Success? ==> |r.value.networkTypes| > 0
    ensures r.Success? ==> (r.value.udp.NoUdp? <==> conf.rtc.forceTCP)
    ensures r.Success? ==>
              r.value.tcp == if conf.rtc.tcpPort != 0 then Some(TcpMuxParams(conf.rtc.tcpPort, TcpReadBufferPackets, TcpWriteBufferBytes))
                             else None
    ensures r.Success? ==> (r.value.readBufferCheck <==> r.value.udp.SharedMux? && !conf.development)
    ensures r.Success? ==> SelectUdp(conf, ipFilter, ifFilter, env.udpMuxError) == Success(r.value.udp)
  {
    var rtc := conf.rtc;
    match SelectUdp(conf, ipFilter, ifFilter, env.udpMuxError)
    case Failure(e) => Failure(e)
    case Success(udp) =>
      var udpTypes := if !rtc.forceTCP then [UDP4, UDP6] else [];
      if rtc.tcpPort != 0 && env.tcpListenError.Some? then Failure(TcpListenFailed(env.tcpListenError.value))
      else
        var tcp := if rtc.tcpPort != 0 then Some(TcpMuxParams(rtc.tcpPort, TcpReadBufferPackets, TcpWriteBufferBytes)) else None;
        var types := udpTypes + (if rtc.tcpPort != 0 then [TCP4, TCP6] else []);
        if |types| == 0 then Failure(TCPForcedNotConfigured)
        else Success(Transport(types, udp, tcp, udp.SharedMux? && !conf.development))
  }

  /** One ICE server entry: the URLs it is reached at. */
  datatype IceServer = IceServer(urls: seq<string>)

  /** The URL scheme prefixed to every STUN server address. */
  const StunScheme := "stun:"

  /** iceServerForStunServers: one "stun:" URL per server, in order. */
  function IceServerForStunServers(servers: seq<string>): (r: IceServer)
    ensures |r.urls| == |servers|
    ensures forall i :: 0 <= i < |servers| ==> r.urls[i] == StunScheme + servers[i]
  {
    if |servers| == 0 then IceServer([])
    else
      var rest := IceServerForStunServers(servers[..|servers| - 1]);
      IceServer(rest.urls + [StunScheme + servers[|servers| - 1]])
  }

  /** Reads server addresses back from STUN URLs by dropping the scheme. */
  function ServersOfUrls(urls: seq<string>): seq<string>
  {
    if |urls| == 0 then []
    else
      var u := urls[0];
      var host := if |StunScheme| <= |u| && u[..|StunScheme|] == StunScheme then u[|StunScheme|..] else u;
      [host] + ServersOfUrls(urls[1..])
  }

  /** The URLs name exactly the configured servers, in order. */
  lemma {:induction false} StunUrlsRoundTrip(servers: seq<string>)
    ensures ServersOfUrls(IceServerForStunServers(servers).urls) == servers
    decreases |servers|
  {
    var urls := IceServerForStunServers(servers).urls;
    if |servers| > 0 {
      assert (StunScheme + servers[0])[..|StunScheme|] == StunScheme;
      assert (StunScheme + servers[0])[|StunScheme|..] == servers[0];
      StunUrlsRoundTrip(servers[1..]);
      assert IceServerForStunServers(servers[1..]).urls == urls[1..];
    }
  }

  /** How ICE reaches the outside: lite mode, STUN-assisted gathering, or host candidates only. */
  datatype IceRole = Lite | StunAssisted(servers: seq<string>) | HostOnly

  /**
    Lite ICE when requested; otherwise STUN servers (configured, else the
    defaults) unless a node IP is set or automatic external IPs are used.
   */
  function SelectIceRole(rtc: RTCConfig, defaults: seq<string>): (r: IceRole)
    ensures r.Lite? <==> rtc.useICELite
    ensures r.StunAssisted? <==> !rtc.useICELite && rtc.nodeIP == "" && !rtc.useExternalIP
    ensures r.StunAssisted? ==> r.servers == StunServersOrDefault(rtc.stunServers, defaults)
  {
    if rtc.useICELite then Lite
    else if rtc.nodeIP == "" && !rtc.useExternalIP then StunAssisted(StunServersOrDefault(rtc.stunServers, defaults))
    else HostOnly
  }

  /** The ICE servers of the engine configuration for a role. */
  function IceServersFor(role: IceRole): (r: seq<IceServer>)
    ensures |r| <= 1
    ensures |r| == 1 <==> role.StunAssisted?
    ensures role.StunAssisted? ==> r == [IceServerForStunServers(role.servers)]
  {
    match role
    case StunAssisted(servers) => [IceServerForStunServers(servers)]
    case _ => []
  }

  /** What the builder puts into the setting engine. */
  datatype SettingEngine = SettingEngine(
    interfaceFilter: Option<Lists>,
    ipFilter: Option<IPFilter>,
    multicastDNSDisabled: bool,
    nat1To1IPs: Option<set<string>>,
    transport: Transport,
    includeLoopbackCandidate: bool,
    lite: bool)

  /** The assembled transport configuration. */
  datatype WebRTCConfig = WebRTCConfig(
    iceServers: seq<IceServer>,
    engine: SettingEngine,
    packetBufferSize: int,
    udpMux: Option<UdpMuxParams>,
    tcpListenerPort: Option<nat>,
    publisher: DirectionConfig,
    subscriber: DirectionConfig,
    nat1To1IPs: Option<set<string>>,
    useMDNS: bool)

  /** The IP filter is only built when some IP include or exclude is configured. */
  function BuildIPFilter(ips: Lists, parse: string -> Option<Block>): (r: Result<Option<IPFilter>, ConfigError>)
    ensures |ips.includes| == 0 && |ips.excludes| == 0 ==> r == Success(None)
    ensures r.Failure? <==> exists s :: s in ips.includes + ips.excludes && parse(s).None?
    ensures r.Success? && r.value.Some? ==> IPFilterFromConf(ips, parse) == Success(r.value.value)
    ensures r.Success? ==> (r.value.Some? <==> |ips.includes| + |ips.excludes| > 0)
  {
    if |ips.includes| != 0 || |ips.excludes| != 0 then
      match IPFilterFromConf(ips, parse)
      case Failure(e) => Failure(FilterFailed(e))
      case Success(f) => Success(Some(f))
    else
      assert ips.includes + ips.excludes == [];
      Success(None)
  }

  /** The local-IP predicate discovery applies: everything passes when there is no IP filter. */
  function Admitter(ipFilter: Option<IPFilter>, addressOf: string -> Address): (admit: string -> bool)
    ensures ipFilter.None? ==> forall ip :: admit(ip)
    ensures ipFilter.Some? ==> forall ip :: admit(ip) == IPAdmits(ipFilter.value, addressOf(ip))
  {
    match ipFilter
    case None => (ip: string) => true
    case Some(f) => (ip: string) => IPAdmits(f, addressOf(ip))
  }

  /** NAT 1:1 discovery as the builder runs it: the configured STUN servers and ports, and the IP filter as admitter. */
  function Discover(conf: Config, ipFilter: Option<IPFilter>, env: Environment): Result<Option<set<string>>, ResolveError>
    requires DrawsFit(PortsOf(conf.rtc), env.discovery.draws)
  {
    GetNAT1to1IPs(conf.rtc.stunServers, env.defaultStunServers, PortsOf(conf.rtc),
                  Admitter(ipFilter, env.addressOf), env.discovery)
  }

  /**
    The NAT 1:1 IPs for the engine and for the returned configuration.
    Discovery that finds nothing falls back to the external IP for the engine,
    while the returned list stays nil.
   */
  function ResolveNat(conf: Config, externalIP: string, ipFilter: Option<IPFilter>, env: Environment)
    : (r: Result<(Option<set<string>>, Option<set<string>>), ConfigError>)
    requires DrawsFit(PortsOf(conf.rtc), env.discovery.draws)
    ensures r.Failure? ==> SelectNatStrategy(conf.rtc, externalIP) == AutoDiscover && r.error.DiscoveryFailed?
    ensures r.Success? ==> (r.value.0.Some? <==> SelectNatStrategy(conf.rtc, externalIP) != NoMapping)
    ensures r.Success? && r.value.0.Some? ==> |r.value.0.value| > 0
    ensures r.Success? && SelectNatStrategy(conf.rtc, externalIP) == StaticHint ==> r.value == (Some({externalIP}), None)
    ensures r.Success? && r.value.1.Some? ==>
              SelectNatStrategy(conf.rtc, externalIP) == AutoDiscover && r.value.0 == r.value.1
    ensures r.Success? && SelectNatStrategy(conf.rtc, externalIP) == AutoDiscover && r.value.1.None? ==>
              r.value.0 == Some({externalIP})
    ensures SelectNatStrategy(conf.rtc, externalIP) == AutoDiscover ==>
              var d := Discover(conf, ipFilter, env);
              && (r.Failure? <==> d.Failure?)
              && (r.Success? ==> r.value.1 == d.value && r.value.0 == (if d.value.None? then Some({externalIP}) else d.value))
  {
    var rtc := conf.rtc;
    match SelectNatStrategy(rtc, externalIP)
    case NoMapping => Success((None, None))
    case StaticHint => Success((Some({externalIP}), None))
    case AutoDiscover =>
      match Discover(conf, ipFilter, env)
      case Failure(e) => Failure(DiscoveryFailed(e))
      case Success(ips) =>
        if ips.None? || |ips.value| == 0 then Success((Some({externalIP}), ips))
        else Success((ips, ips))
  }

  /** The final assembly once every fallible step has succeeded. */
  function Assemble(rtc: RTCConfig, defaultStunServers: seq<string>, ifFilter: Option<Lists>, ipFilter: Option<IPFilter>,
                    natIPs: (Option<set<string>>, Option<set<string>>), transport: Transport): (c: WebRTCConfig)
    ensures c.engine.transport == transport && c.engine.nat1To1IPs == natIPs.0 && c.nat1To1IPs == natIPs.1
    ensures c.packetBufferSize == if rtc.packetBufferSize == 0 then DefaultPacketBufferSize else rtc.packetBufferSize
    ensures c.engine.lite <==> rtc.useICELite
    ensures c.udpMux == if transport.udp.SharedMux? then Some(transport.udp.mux) else None
    ensures c.tcpListenerPort == if transport.tcp.Some? then Some(transport.tcp.value.port) else None
    ensures c.engine.multicastDNSDisabled == !rtc.useMDNS && c.useMDNS == rtc.useMDNS
    ensures c.publisher == Publisher() && c.subscriber == Subscriber(rtc.strictACKs, rtc.useSendSideBWE)
    ensures !rtc.useICELite && rtc.nodeIP == "" && !rtc.useExternalIP ==>
              c.iceServers == [IceServerForStunServers(StunServersOrDefault(rtc.stunServers, defaultStunServers))]
    ensures rtc.useICELite || rtc.nodeIP != "" || rtc.useExternalIP ==> c.iceServers == []
  {
    var role := SelectIceRole(rtc, defaultStunServers);
    var engine := SettingEngine(ifFilter, ipFilter, !rtc.useMDNS, natIPs.0, transport,
                                rtc.enableLoopbackCandidate, role.Lite?);
    var packetBufferSize := if rtc.packetBufferSize == 0 then DefaultPacketBufferSize else rtc.packetBufferSize;
    var udpMux := if transport.udp.SharedMux? then Some(transport.udp.mux) else None;
    var tcpListenerPort := if transport.tcp.Some? then Some(transport.tcp.value.port) else None;
    WebRTCConfig(IceServersFor(role), engine, packetBufferSize, udpMux, tcpListenerPort,
                 Publisher(), Subscriber(rtc.strictACKs, rtc.useSendSideBWE), natIPs.1, rtc.useMDNS)
  }

  /**
    NewWebRTCConfig: a bad CIDR entry fails first; then discovery, the UDP
    setup, the TCP listener and a forced TCP without port can fail, in that
    order. A built configuration carries the decisions made on the way and
    owns the UDP multiplexer it created.
   */
  function NewWebRTCConfig(conf: Config, externalIP: string, env: Environment): (r: Result<WebRTCConfig, ConfigError>)
    requires DrawsFit(PortsOf(conf.rtc), env.discovery.draws)
    ensures (exists s :: s in conf.rtc.ips.includes + conf.rtc.ips.excludes && env.parseCIDR(s).None?) ==>
              r.Failure? && r.error.FilterFailed?
    ensures conf.rtc.forceTCP && conf.rtc.tcpPort == 0 ==> r.Failure?
    ensures r.Success? ==> (UDP4 in r.value.engine.transport.networkTypes <==> !conf.rtc.forceTCP)
    ensures r.Success? ==> (TCP4 in r.value.engine.transport.networkTypes <==> conf.rtc.tcpPort != 0)
    ensures r.Success? ==>
              r.value.packetBufferSize == if conf.rtc.packetBufferSize == 0 then DefaultPacketBufferSize else conf.rtc.packetBufferSize
    ensures r.Success? ==> (r.value.engine.lite <==> conf.rtc.useICELite)
    ensures r.Success? ==> (r.value.engine.nat1To1IPs.Some? <==> SelectNatStrategy(conf.rtc, externalIP) != NoMapping)
    ensures r.Success? && r.value.nat1To1IPs.Some? ==> r.value.engine.nat1To1IPs == r.value.nat1To1IPs
    ensures r.Success? && SelectNatStrategy(conf.rtc, externalIP) == AutoDiscover ==>
              Discover(conf, BuildIPFilter(conf.rtc.ips, env.parseCIDR).value, env) == Success(r.value.nat1To1IPs)
    ensures r.Success? ==> r.value.udpMux == (if r.value.engine.transport.udp.SharedMux? then Some(r.value.engine.transport.udp.mux) else None)
    ensures r.Success? ==> r.value.tcpListenerPort == (if conf.rtc.tcpPort != 0 then Some(conf.rtc.tcpPort) else None)
    ensures r.Success? ==> r.value.engine.multicastDNSDisabled == !conf.rtc.useMDNS && r.value.useMDNS == conf.rtc.useMDNS
    ensures r.Success? ==>
              r.value.publisher == Publisher() && r.value.subscriber == Subscriber(conf.rtc.strictACKs, conf.rtc.useSendSideBWE)
    ensures r.Success? && !conf.rtc.useICELite && conf.rtc.nodeIP == "" && !conf.rtc.useExternalIP ==>
              r.value.iceServers == [IceServerForStunServers(StunServersOrDefault(conf.rtc.stunServers, env.defaultStunServers))]
    ensures r.Success? && (conf.rtc.useICELite || conf.rtc.nodeIP != "" || conf.rtc.useExternalIP) ==> r.value.iceServers == []
  {
    var rtc := conf.rtc;
    var ifFilter := if |rtc.interfaces.includes| != 0 || |rtc.interfaces.excludes| != 0 then Some(rtc.interfaces) else None;
    match BuildIPFilter(rtc.ips, env.parseCIDR)
    case Failure(e) => Failure(e)
    case Success(ipFilter) =>
      match ResolveNat(conf, externalIP, ipFilter, env)
      case Failure(e) => Failure(e)
      case Success(natIPs) =>
        match SelectTransport(conf, ipFilter, ifFilter, env)
        case Failure(e) => Failure(e)
        case Success(transport) =>
          Success(Assemble(conf.rtc, env.defaultStunServers, ifFilter, ipFilter, natIPs, transport))
  }

  /**
    What a built configuration installs in the setting engine besides the
    transport: the IP filter that was built, the interface filter when an
    interface list is configured, the loopback flag, and the NAT 1:1 IPs
    outside the discovery result: the external IP for a static hint and
    after an empty discovery, and no returned list unless discovery ran.
   */
  lemma EngineSettingsBuilt(conf: Config, externalIP: string, env: Environment)
    requires DrawsFit(PortsOf(conf.rtc), env.discovery.draws)
    ensures var r := NewWebRTCConfig(conf, externalIP, env);
            var s := SelectNatStrategy(conf.rtc, externalIP);
            var ifs := conf.rtc.interfaces;
            r.Success? ==>
              && r.value.engine.ipFilter == BuildIPFilter(conf.rtc.ips, env.parseCIDR).value
              && r.value.engine.interfaceFilter == (if |ifs.includes| != 0 || |ifs.excludes| != 0 then Some(ifs) else None)
              && r.value.engine.includeLoopbackCandidate == conf.rtc.enableLoopbackCandidate
              && (s != AutoDiscover ==> r.value.nat1To1IPs.None?)
              && (s == StaticHint ==> r.value.engine.nat1To1IPs == Some({externalIP}))
              && (s == AutoDiscover && r.value.nat1To1IPs.None? ==> r.value.engine.nat1To1IPs == Some({externalIP}))
  {
  }

  /**
    A configuration built in STUN-assisted mode advertises exactly one ICE
    server, whose URLs name the configured STUN servers, or the defaults when
    none are configured.
   */
  lemma StunServersAdvertised(conf: Config, externalIP: string, env: Environment)
    requires DrawsFit(PortsOf(conf.rtc), env.discovery.draws)
    ensures var r := NewWebRTCConfig(conf, externalIP, env);
            r.Success? && !conf.rtc.useICELite && conf.rtc.nodeIP == "" && !conf.rtc.useExternalIP ==>
              && |r.value.iceServers| == 1
              && ServersOfUrls(r.value.iceServers[0].urls)
                 == (if |conf.rtc.stunServers| > 0 then conf.rtc.stunServers else env.defaultStunServers)
  {
    var r := NewWebRTCConfig(conf, externalIP, env);
    if r.Success? && !conf.rtc.useICELite && conf.rtc.nodeIP == "" && !conf.rtc.useExternalIP {
      StunUrlsRoundTrip(StunServersOrDefault(conf.rtc.stunServers, env.defaultStunServers));
    }
  }

  /** The transport causes of failure: an inverted ICE range, a UDP multiplexer or TCP listener that cannot bind, forced TCP without port. */
  predicate TransportRejected(rtc: RTCConfig, env: Environment)
  {
    || (!rtc.forceTCP && RangeConfigured(PortsOf(rtc)) && ToUint16(rtc.icePortRangeEnd) < ToUint16(rtc.icePortRangeStart))
    || (!rtc.forceTCP && !RangeConfigured(PortsOf(rtc)) && rtc.udpPort != 0 && env.udpMuxError.Some?)
    || (rtc.tcpPort != 0 && env.tcpListenError.Some?)
    || (rtc.forceTCP && rtc.tcpPort == 0)
  }

  /** The transport setup fails exactly on one of the transport causes, whatever the filters. */
  lemma TransportFailsExactly(conf: Config, ipFilter: Option<IPFilter>, ifFilter: Option<Lists>, env: Environment)
    ensures SelectTransport(conf, ipFilter, ifFilter, env).Failure? <==> TransportRejected(conf.rtc, env)
  {
    var rtc := conf.rtc;
    var u := SelectUdp(conf, ipFilter, ifFilter, env.udpMuxError);
    assert u.Failure? <==>
             || (!rtc.forceTCP && RangeConfigured(PortsOf(rtc)) && ToUint16(rtc.icePortRangeEnd) < ToUint16(rtc.icePortRangeStart))
             || (!rtc.forceTCP && !RangeConfigured(PortsOf(rtc)) && rtc.udpPort != 0 && env.udpMuxError.Some?);
  }

  /**
    The configuration is built exactly when none of the failure causes is
    present: every CIDR entry parses, discovery (when it runs) can enumerate
    the local IPs and sample the range, and the transport is not rejected.
   */
  lemma BuildFailsExactly(conf: Config, externalIP: string, env: Environment)
    requires DrawsFit(PortsOf(conf.rtc), env.discovery.draws)
    ensures var rtc := conf.rtc;
            NewWebRTCConfig(conf, externalIP, env).Failure? <==>
              || (exists s :: s in rtc.ips.includes + rtc.ips.excludes && env.parseCIDR(s).None?)
              || (SelectNatStrategy(rtc, externalIP) == AutoDiscover
                  && (env.discovery.localIPs.Failure? || CandidatePorts(PortsOf(rtc), env.discovery.draws).None?))
              || TransportRejected(rtc, env)
  {
    var rtc := conf.rtc;
    var f := BuildIPFilter(rtc.ips, env.parseCIDR);
    if f.Success? {
      var ifFilter := if |rtc.interfaces.includes| != 0 || |rtc.interfaces.excludes| != 0 then Some(rtc.interfaces) else None;
      TransportFailsExactly(conf, f.value, ifFilter, env);
      var n := ResolveNat(conf, externalIP, f.value, env);
      assert n.Failure? <==>
               SelectNatStrategy(rtc, externalIP) == AutoDiscover
               && (env.discovery.localIPs.Failure? || CandidatePorts(PortsOf(rtc), env.discovery.draws).None?);
    }
  }

  /**
    Each failure names its cause: a bad CIDR entry, failed discovery, an
    inverted ICE range, the bind error of the UDP multiplexer or the TCP
    listener, or forced TCP without a port.
   */
  lemma BuildErrorCauses(conf: Config, externalIP: string, env: Environment)
    requires DrawsFit(PortsOf(conf.rtc), env.discovery.draws)
    ensures var r := NewWebRTCConfig(conf, externalIP, env);
            r.Failure? ==>
              || r.error.FilterFailed?
              || r.error.DiscoveryFailed?
              || r.error.PortRangeRejected?
              || (r.error.UdpMuxFailed? && env.udpMuxError == Some(r.error.message))
              || (r.error.TcpListenFailed? && env.tcpListenError == Some(r.error.message))
              || (r.error == TCPForcedNotConfigured && conf.rtc.forceTCP && conf.rtc.tcpPort == 0)
  {
  }

  /**
    NewWebRTCConfig as written: the multiplexer is assigned to a variable
    declared inside the UDP-port branch, so the returned configuration never
    holds it, although the setting engine uses it.
   */
  function NewWebRTCConfigAsWritten(conf: Config, externalIP: string, env: Environment): (r: Result<WebRTCConfig, ConfigError>)
    requires DrawsFit(PortsOf(conf.rtc), env.discovery.draws)
    ensures r.Success? ==> r.value.udpMux.None?
    ensures r.Failure? <==> NewWebRTCConfig(conf, externalIP, env).Failure?
  {
    match NewWebRTCConfig(conf, externalIP, env)
    case Failure(e) => Failure(e)
    case Success(c) => Success(c.(udpMux := None))
  }

  /** A configuration with only a fixed UDP port: no filters, NAT mapping, range or TCP. */
  function UdpPortOnly(port: nat): RTCConfig
  {
    RTCConfig(Lists([], []), Lists([], []), false, false, "", false, 0, false, 0, 0, port, 0,
              false, false, true, false, [])
  }

  /** An environment with no CIDR list to parse, in which both sockets bind and nothing is discovered. */
  function QuietEnvironment(): Environment
  {
    Environment((s: string) => None, (s: string) => [], [],
                World(Success([]), (servers: seq<string>, local: string, port: int) => Error(""), [], []),
                None, None)
  }

  /**
    With a fixed UDP port the setting engine gets a multiplexer, yet the
    configuration as written returns none, so nobody can close it.
   */
  lemma UdpMuxShadowed()
    ensures var r := NewWebRTCConfigAsWritten(Config(UdpPortOnly(7882), false), "", QuietEnvironment());
            && r.Success?
            && r.value.engine.transport.udp.SharedMux?
            && r.value.udpMux.None?
  {
  }

  /**
    The corrected builder returns a multiplexer exactly when it built one:
    TCP not forced, no ICE port range, a fixed UDP port. It is bound to that
    port with the 16 MiB socket buffers.
   */
  lemma UdpMuxOwned(conf: Config, externalIP: string, env: Environment)
    requires DrawsFit(PortsOf(conf.rtc), env.discovery.draws)
    requires NewWebRTCConfig(conf, externalIP, env).Success?
    ensures var c := NewWebRTCConfig(conf, externalIP, env).value;
            c.udpMux.Some? <==> !conf.rtc.forceTCP && !RangeConfigured(PortsOf(conf.rtc)) && conf.rtc.udpPort != 0
    ensures var c := NewWebRTCConfig(conf, externalIP, env).value;
            c.udpMux.Some? ==>
              && c.udpMux.value.port == conf.rtc.udpPort
              && c.udpMux.value.readBufferSize == UdpMuxBufferSize
              && c.udpMux.value.writeBufferSize == UdpMuxBufferSize
  {
  }
}

=== FILE: collection.dfy ===
/**
  The collector side of NAT 1:1 discovery: which results are received before
  the adaptive deadline, the first-writer-wins fold into a map keyed by
  external IP, the self-mapping of local IPs left unresolved, and the
  "external/local" strings the map is finally rendered as.
 */
module Collection {

  /** A discovered pair as it travels over the results channel. */
  datatype Mapping = Mapping(external: string, local: string)

  /** A result and the time, in milliseconds after the collector started, it arrived. */
  datatype Delivery = Delivery(at: nat, mapping: Mapping)

  /** The deadline while no result has arrived yet, in milliseconds. */
  const InitialTimeout := 5000

  /** Once the first result arrives, the deadline becomes its arrival time plus this. */
  const GraceAfterFirst := 1000

  /** The collector's timer: waiting for a first result, or collecting until `deadline`. */
  datatype Timer = Waiting | Collecting(deadline: nat)

  /** The deadline the timer is currently set to. */
  function Deadline(t: Timer): nat
  {
    match t
    case Waiting => InitialTimeout
    case Collecting(d) => d
  }

  /**
    The select loop: each delivery that arrives before the active deadline is
    received (the first one shortens the deadline); the timer firing ends it.
   */
  function Receive(deliveries: seq<Delivery>, t: Timer): (r: seq<Mapping>)
    ensures |r| <= |deliveries|
    ensures forall i :: 0 <= i < |r| ==> r[i] == deliveries[i].mapping
    ensures t.Collecting? ==> forall i :: 0 <= i < |r| ==> deliveries[i].at < t.deadline
    ensures t.Collecting? && |r| < |deliveries| ==> deliveries[|r|].at >= t.deadline
  {
    if |deliveries| == 0 || deliveries[0].at >= Deadline(t) then []
    else
      var next := if t.Waiting? then Collecting(deliveries[0].at + GraceAfterFirst) else t;
      [deliveries[0].mapping] + Receive(deliveries[1..], next)
  }

  /**
    What the collector received: the longest prefix of the deliveries that beat
    the deadline, which is 5 s until the first arrival and 1 s after it.
   */
  function Collected(deliveries: seq<Delivery>): (r: seq<Mapping>)
    ensures |r| <= |deliveries|
    ensures forall i :: 0 <= i < |r| ==> r[i] == deliveries[i].mapping
    ensures |r| > 0 <==> |deliveries| > 0 && deliveries[0].at < InitialTimeout
    ensures forall i :: 0 < i < |r| ==> deliveries[i].at < deliveries[0].at + GraceAfterFirst
    ensures 0 < |r| < |deliveries| ==> deliveries[|r|].at >= deliveries[0].at + GraceAfterFirst
    ensures forall i :: 0 <= i < |r| ==> deliveries[i].at < InitialTimeout + GraceAfterFirst
  {
    Receive(deliveries, Waiting)
  }

  /** The external IPs some mapping of `xs` names. */
  function Externals(xs: seq<Mapping>): set<string>
  {
    set i | 0 <= i < |xs| :: xs[i].external
  }

  /** `xs[i]` is the first mapping of `xs` for external IP `k`. */
  ghost predicate FirstFor(xs: seq<Mapping>, k: string, i: int)
  {
    0 <= i < |xs| && xs[i].external == k && forall j :: 0 <= j < i ==> xs[j].external != k
  }

  /** One received mapping: kept unless its external IP is already taken. */
  function Record(m: map<string, string>, x: Mapping): map<string, string>
  {
    if x.external in m then m else m[x.external := x.local]
  }

  /** Peeling the first mapping off `xs`. */
  lemma ExternalsCons(xs: seq<Mapping>)
    requires |xs| > 0
    ensures Externals(xs) == {xs[0].external} + Externals(xs[1..])
  {
  }

  /**
    The fold of received mappings into `m`: it adds exactly the collected
    external IPs as keys, and a pair already in the map is never overwritten.
   */
  function Dedup(m: map<string, string>, xs: seq<Mapping>): (r: map<string, string>)
    ensures r.Keys == m.Keys + Externals(xs)
    ensures forall k :: k in m ==> r[k] == m[k]
    decreases |xs|
  {
    if |xs| == 0 then m
    else
      ExternalsCons(xs);
      Dedup(Record(m, xs[0]), xs[1..])
  }

  /** First writer wins: a new external IP keeps the local IP of its first mapping. */
  lemma {:induction false} DedupFirstWriterWins(m: map<string, string>, xs: seq<Mapping>, k: string, i: int)
    requires k !in m && FirstFor(xs, k, i)
    ensures k in Dedup(m, xs) && Dedup(m, xs)[k] == xs[i].local
    decreases |xs|
  {
    if i > 0 {
      assert xs[0].external != k;
      assert FirstFor(xs[1..], k, i - 1) by {
        forall j | 0 <= j < i - 1
          ensures xs[1..][j].external != k
        {
          assert xs[1..][j] == xs[j + 1];
        }
      }
      DedupFirstWriterWins(Record(m, xs[0]), xs[1..], k, i - 1);
    }
  }

  /** No external IP that was collected is a local IP which no collected pair maps to. */
  ghost predicate NoClash(m: map<string, string>, locals: seq<string>)
  {
    forall k :: k in m && k in locals ==> k in m.Values
  }

  /** No two keys share a value: every local IP is the value of at most one entry. */
  ghost predicate Injective(m: map<string, string>)
  {
    forall a, b :: a in m && b in m && m[a] == m[b] ==> a == b
  }

  /** One step of the self-mapping pass: `l` maps to itself unless it is already a value. */
  function SelfMap(m: map<string, string>, l: string): map<string, string>
  {
    if l in m.Values then m else m[l := l]
  }

  /**
    The self-mapping pass over the unfiltered local IP list: it only adds keys
    that are local IPs, every entry it touches becomes a self-mapping, and
    entries whose key is not a local IP are left alone.
   */
  function MapUnresolved(m: map<string, string>, locals: seq<string>): (r: map<string, string>)
    ensures forall k :: k in r ==> k in m || k in locals
    ensures forall k :: k in m && k !in locals ==> k in r && r[k] == m[k]
    ensures forall k :: k in r ==> r[k] == k || (k in m && r[k] == m[k])
    ensures forall k :: k in m ==> k in r
    decreases |locals|
  {
    if |locals| == 0 then m
    else
      assert forall k :: k in locals[1..] ==> k in locals;
      MapUnresolved(SelfMap(m, locals[0]), locals[1..])
  }

  /** After its step, `l` is a value of the map. */
  lemma SelfMapCovers(m: map<string, string>, l: string)
    ensures l in SelfMap(m, l).Values
  {
    if l !in m.Values {
      assert SelfMap(m, l)[l] == l;
    }
  }

  /** A step keeps the map injective: the value it adds is new. */
  lemma SelfMapInjective(m: map<string, string>, l: string)
    requires Injective(m)
    ensures Injective(SelfMap(m, l))
  {
  }

  /** The self-mapping pass keeps the map injective, whatever the local IPs. */
  lemma {:induction false} MapUnresolvedInjective(m: map<string, string>, locals: seq<string>)
    requires Injective(m)
    ensures Injective(MapUnresolved(m, locals))
    decreases |locals|
  {
    if |locals| > 0 {
      SelfMapInjective(m, locals[0]);
      MapUnresolvedInjective(SelfMap(m, locals[0]), locals[1..]);
    }
  }

  /**
    Without a clash the pass only adds self-mappings: every entry of `m`
    survives, and every local IP ends up as a value.
   */
  lemma {:induction false} MapUnresolvedCovers(m: map<string, string>, locals: seq<string>)
    requires NoClash(m, locals)
    ensures forall k :: k in m ==> MapUnresolved(m, locals)[k] == m[k]
    ensures forall l :: l in locals ==> l in MapUnresolved(m, locals).Values
    decreases |locals|
  {
    if |locals| > 0 {
      var l := locals[0];
      var m' := SelfMap(m, l);
      SelfMapCovers(m, l);
      assert l !in m.Values ==> l !in m;
      assert forall k :: k in m ==> k in m' && m'[k] == m[k];
      assert NoClash(m', locals[1..]) by {
        forall k | k in m' && k in locals[1..]
          ensures k in m'.Values
        {
          if k != l {
            assert k in m && k in locals;
            var a :| a in m && m[a] == k;
            assert m'[a] == k;
          }
        }
      }
      MapUnresolvedCovers(m', locals[1..]);
      var r := MapUnresolved(m', locals[1..]);
      assert l in r.Values by {
        var a :| a in m' && m'[a] == l;
        assert r[a] == l;
      }
    }
  }

  /** The string one mapping is rendered as. */
  function Entry(external: string, local: string): string
  {
    external + "/" + local
  }

  /** The index of the first '/' in `s`, or `|s|` when there is none. */
  function SlashIndex(s: string): (i: nat)
    ensures i <= |s|
    ensures forall j :: 0 <= j < i ==> s[j] != '/'
    ensures i < |s| ==> s[i] == '/'
  {
    if |s| == 0 || s[0] == '/' then 0 else 1 + SlashIndex(s[1..])
  }

  /** Reads an entry back: the text before the first '/' and the text after it. */
  function SplitEntry(s: string): (string, string)
  {
    var i := SlashIndex(s);
    if i == |s| then (s, "") else (s[..i], s[i + 1..])
  }

  /** An external IP never contains '/', so an entry reads back as the pair it renders. */
  lemma EntryRoundTrip(external: string, local: string)
    requires '/' !in external
    ensures SplitEntry(Entry(external, local)) == (external, local)
  {
    var s := Entry(external, local);
    var i := SlashIndex(s);
    assert s[|external|] == '/';
    assert forall j :: 0 <= j < |external| ==> s[j] == external[j];
    assert i == |external|;
    assert s[..|external|] == external;
    assert s[|external| + 1..] == local;
  }

  /** The output list, as a set: Go's map iteration order leaves its order unspecified. */
  function Entries(m: map<string, string>): set<string>
  {
    set k | k in m :: Entry(k, m[k])
  }

  /**
    Every output entry reads back as a pair of the map, and no two entries
    share an external IP: the keys stay unique after rendering.
   */
  lemma EntriesReadBack(m: map<string, string>)
    requires forall k :: k in m ==> '/' !in k
    ensures forall k :: k in m ==> Entry(k, m[k]) in Entries(m)
    ensures forall s :: s in Entries(m) ==> SplitEntry(s).0 in m && m[SplitEntry(s).0] == SplitEntry(s).1
    ensures forall s, t :: s in Entries(m) && t in Entries(m) && SplitEntry(s).0 == SplitEntry(t).0 ==> s == t
    ensures |m| > 0 ==> |Entries(m)| > 0
  {
    forall s | s in Entries(m)
      ensures SplitEntry(s).0 in m && m[SplitEntry(s).0] == SplitEntry(s).1
      ensures s == Entry(SplitEntry(s).0, SplitEntry(s).1)
    {
      var k :| k in m && s == Entry(k, m[k]);
      EntryRoundTrip(k, m[k]);
    }
    if |m| > 0 {
      var k :| k in m;
      assert Entry(k, m[k]) in Entries(m);
    }
  }
}

=== FILE: filters.dfy ===
/**
  Interface-name and IP/CIDR filters that gate which local networks take part in
  ICE candidate gathering and NAT discovery. Both filters share one decision:
  a non-empty include list admits exactly its matches (excludes are ignored);
  otherwise a value is refused exactly when some exclude matches it.
 */
module Filters {
  import opened Wrappers

  /** True when some pattern matches `x`, scanning the patterns in order. */
  function AnyMatch<P, X>(patterns: seq<P>, matches: (P, X) -> bool, x: X): (r: bool)
    ensures r <==> exists i :: 0 <= i < |patterns| && matches(patterns[i], x)
  {
    if |patterns| == 0 then false
    else if matches(patterns[0], x) then true
    else
      var rest := AnyMatch(patterns[1..], matches, x);
      assert forall i :: 1 <= i < |patterns| ==> patterns[i] == patterns[1..][i - 1];
      rest
  }

  /** The include-wins, else-exclude decision shared by both filters. */
  function Admits<P, X>(includes: seq<P>, excludes: seq<P>, matches: (P, X) -> bool, x: X): (r: bool)
    ensures |includes| > 0 ==> (r <==> exists i :: 0 <= i < |includes| && matches(includes[i], x))
    ensures |includes| == 0 ==> (r <==> forall j :: 0 <= j < |excludes| ==> !matches(excludes[j], x))
  {
    if |includes| > 0 then AnyMatch(includes, matches, x)
    else if |excludes| > 0 then !AnyMatch(excludes, matches, x)
    else true
  }

  /** Include and exclude lists as they appear in the configuration. */
  datatype Lists = Lists(includes: seq<string>, excludes: seq<string>)

  /** The predicate returned by InterfaceFilterFromConf, applied to an interface name. */
  function InterfaceFilter(ifs: Lists, name: string): (r: bool)
    ensures |ifs.includes| > 0 ==> (r <==> name in ifs.includes)
    ensures |ifs.includes| == 0 ==> (r <==> name !in ifs.excludes)
  {
    Admits(ifs.includes, ifs.excludes, (pattern: string, n: string) => pattern == n, name)
  }

  /** An IP address as its bits: 32 of them for IPv4, 128 for IPv6. */
  type Address = seq<bool>

  /** A parsed CIDR block (section 3.1 of RFC 4632): network bits and prefix length. */
  datatype Block = Block(network: Address, prefixLen: nat)

  /** Block membership: same address family and the same leading `prefixLen` bits. */
  predicate Contains(b: Block, ip: Address)
  {
    |ip| == |b.network| && b.prefixLen <= |ip| && ip[..b.prefixLen] == b.network[..b.prefixLen]
  }

  /** The include and exclude blocks an IP filter closes over. */
  datatype IPFilter = IPFilter(includes: seq<Block>, excludes: seq<Block>)

  /** The predicate returned by IPFilterFromConf, applied to an address. */
  function IPAdmits(f: IPFilter, ip: Address): (r: bool)
    ensures |f.includes| > 0 ==> (r <==> exists i :: 0 <= i < |f.includes| && Contains(f.includes[i], ip))
    ensures |f.includes| == 0 ==> (r <==> forall j :: 0 <= j < |f.excludes| ==> !Contains(f.excludes[j], ip))
  {
    Admits(f.includes, f.excludes, Contains, ip)
  }

  /** Why an IP filter could not be built: the text of the entry that is not a CIDR block. */
  datatype FilterError = InvalidCIDR(entry: string)

  /** True when every entry before index `n` parses. */
  ghost predicate ParsesBefore(entries: seq<string>, parse: string -> Option<Block>, n: int)
  {
    forall j :: 0 <= j < n && j < |entries| ==> parse(entries[j]).Some?
  }

  /** Parses every entry in order and stops at the first one that is not a CIDR block. */
  function ParseBlocks(entries: seq<string>, parse: string -> Option<Block>): (r: Result<seq<Block>, FilterError>)
    ensures r.Success? <==> forall i :: 0 <= i < |entries| ==> parse(entries[i]).Some?
    ensures r.Success? ==> |r.value| == |entries|
    ensures r.Success? ==> forall i :: 0 <= i < |entries| ==> parse(entries[i]) == Some(r.value[i])
    ensures r.Failure? ==> exists i :: 0 <= i < |entries| && entries[i] == r.error.entry
                                    && parse(entries[i]).None? && ParsesBefore(entries, parse, i)
  {
    if |entries| == 0 then Success([])
    else match parse(entries[0])
      case None => Failure(InvalidCIDR(entries[0]))
      case Some(b) =>
        match ParseBlocks(entries[1..], parse)
        case Failure(e) =>
          assert forall i :: 1 <= i < |entries| ==> entries[i] == entries[1..][i - 1];
          Failure(e)
        case Success(bs) =>
          assert forall i :: 1 <= i < |entries| ==> entries[i] == entries[1..][i - 1];
          Success([b] + bs)
  }

  /**
    Builds the IP filter from the configured CIDR lists: includes are parsed
    first, then excludes; the first entry that does not parse aborts with no filter.
   */
  function IPFilterFromConf(ips: Lists, parse: string -> Option<Block>): (r: Result<IPFilter, FilterError>)
    ensures r.Success? <==> forall s :: s in ips.includes + ips.excludes ==> parse(s).Some?
    ensures r.Success? ==> |r.value.includes| == |ips.includes| && |r.value.excludes| == |ips.excludes|
    ensures r.Success? ==> forall i :: 0 <= i < |ips.includes| ==> parse(ips.includes[i]) == Some(r.value.includes[i])
    ensures r.Success? ==> forall i :: 0 <= i < |ips.excludes| ==> parse(ips.excludes[i]) == Some(r.value.excludes[i])
    ensures r.Failure? ==> exists i :: 0 <= i < |ips.includes + ips.excludes|
                                    && (ips.includes + ips.excludes)[i] == r.error.entry
                                    && parse(r.error.entry).None?
                                    && ParsesBefore(ips.includes + ips.excludes, parse, i)
  {
    var all := ips.includes + ips.excludes;
    assert forall i :: 0 <= i < |ips.includes| ==> all[i] == ips.includes[i];
    assert forall i :: 0 <= i < |ips.excludes| ==> all[|ips.includes| + i] == ips.excludes[i];
    match ParseBlocks(ips.includes, parse)
    case Failure(e) => Failure(e)
    case Success(inc) =>
      match ParseBlocks(ips.excludes, parse)
      case Failure(e) => Failure(e)
      case Success(exc) => Success(IPFilter(inc, exc))
  }
}

=== FILE: probing.dfy ===
/**
  The two per-local-IP pieces of NAT 1:1 discovery: choosing the candidate UDP
  ports to bind, and the probe loop that walks those ports for one local IP.
 */
module Probing {
  import opened Wrappers

  /** How many ports are sampled from a configured ICE port range. */
  const SampleCount := 5

  /** Go's `uint16` arithmetic is modulo this. */
  const PortModulus := 0x1_0000

  /** The `uint16(...)` conversion applied to the configured range bounds. */
  function ToUint16(n: nat): (r: nat)
    ensures r < PortModulus
    ensures n < PortModulus ==> r == n
  {
    n % PortModulus
  }

  /** The port settings that decide which ports are probed. */
  datatype PortConfig = PortConfig(rangeStart: nat, rangeEnd: nat, udpPort: nat)

  /** An ICE port range counts as configured only when both bounds are non-zero. */
  predicate RangeConfigured(c: PortConfig)
  {
    c.rangeStart != 0 && c.rangeEnd != 0
  }

  /** `int(portRangeEnd-portRangeStart)`: a uint16 difference, wrapping when end < start. */
  function RangeWidth(c: PortConfig): (w: nat)
    ensures w < PortModulus
    ensures ToUint16(c.rangeStart) <= ToUint16(c.rangeEnd) ==> w == ToUint16(c.rangeEnd) - ToUint16(c.rangeStart)
    ensures ToUint16(c.rangeEnd) < ToUint16(c.rangeStart) ==> w == ToUint16(c.rangeEnd) + PortModulus - ToUint16(c.rangeStart)
    ensures (ToUint16(c.rangeStart) + w) % PortModulus == ToUint16(c.rangeEnd)
  {
    (ToUint16(c.rangeEnd) - ToUint16(c.rangeStart)) % PortModulus
  }

  /**
    What `rand.Intn` guarantees about the values it returned: when a range is
    sampled, there are five draws, each in [0, width).
   */
  predicate DrawsFit(c: PortConfig, draws: seq<int>)
  {
    RangeConfigured(c) && RangeWidth(c) > 0 ==>
      |draws| == SampleCount && forall i :: 0 <= i < |draws| ==> 0 <= draws[i] < RangeWidth(c)
  }

  /**
    The candidate ports: five samples from the range when one is configured,
    else the fixed UDP port, else the wildcard port 0. `None` stands for the
    panic of `rand.Intn(0)`, which happens when the truncated bounds are equal.
   */
  function CandidatePorts(c: PortConfig, draws: seq<int>): (r: Option<seq<int>>)
    requires DrawsFit(c, draws)
    ensures r.None? <==> RangeConfigured(c) && RangeWidth(c) == 0
    ensures RangeConfigured(c) && r.Some? ==>
              && |r.value| == SampleCount
              && forall i :: 0 <= i < SampleCount ==>
                   ToUint16(c.rangeStart) <= r.value[i] < ToUint16(c.rangeStart) + RangeWidth(c)
    ensures RangeConfigured(c) && ToUint16(c.rangeStart) < ToUint16(c.rangeEnd) ==>
              && r.Some? && |r.value| == SampleCount
              && forall i :: 0 <= i < SampleCount ==>
                   ToUint16(c.rangeStart) <= r.value[i] < ToUint16(c.rangeEnd)
    ensures RangeConfigured(c) && ToUint16(c.rangeEnd) < ToUint16(c.rangeStart) ==>
              && r.Some? && |r.value| == SampleCount
              && forall i :: 0 <= i < SampleCount ==>
                   ToUint16(c.rangeStart) <= r.value[i] < ToUint16(c.rangeEnd) + PortModulus
    ensures !RangeConfigured(c) && c.udpPort != 0 ==> r == Some([c.udpPort])
    ensures !RangeConfigured(c) && c.udpPort == 0 ==> r == Some([0])
  {
    if RangeConfigured(c) then
      var width := RangeWidth(c);
      if width == 0 then None
      else Some(seq(SampleCount, i requires 0 <= i < SampleCount => draws[i] + ToUint16(c.rangeStart)))
    else if c.udpPort != 0 then Some([c.udpPort])
    else Some([0])
  }

  /** The result of one STUN binding request bound to (local IP, port). */
  datatype Outcome = Reply(external: string) | Error(message: string)

  /** The error text that marks a port as taken rather than a failed request. */
  const AddressInUse := "address already in use"

  /** `pattern` occurs in `s` starting at index `i`. */
  predicate OccursAt(pattern: string, s: string, i: int)
  {
    0 <= i && i + |pattern| <= |s| && s[i..i + |pattern|] == pattern
  }

  /** `strings.Contains(s, pattern)`. */
  function Occurs(pattern: string, s: string): (r: bool)
    ensures r <==> exists i :: OccursAt(pattern, s, i)
    decreases |s|
  {
    if |pattern| <= |s| && s[..|pattern|] == pattern then
      assert OccursAt(pattern, s, 0);
      true
    else if |s| == 0 then false
    else
      var rest := Occurs(pattern, s[1..]);
      assert forall i :: OccursAt(pattern, s, i) && i > 0 ==> OccursAt(pattern, s[1..], i - 1);
      assert forall i :: OccursAt(pattern, s[1..], i) ==> OccursAt(pattern, s, i + 1);
      rest
  }

  /** An error that only says the port is taken: the loop moves to the next port. */
  predicate InUse(o: Outcome)
  {
    o.Error? && Occurs(AddressInUse, o.message)
  }

  /** How the probe of one local IP ended. */
  datatype ProbeEnd = Resolved(external: string) | Aborted(message: string) | Exhausted

  /** Every attempt on the ports before index `n` failed with "address already in use". */
  ghost predicate InUseBefore(attempt: int -> Outcome, ports: seq<int>, n: int)
  {
    forall j :: 0 <= j < n && j < |ports| ==> InUse(attempt(ports[j]))
  }

  /**
    The probe of one local IP: ports are tried in order; the first reply
    resolves, "address already in use" moves on, any other error aborts.
    `attempt(port)` is the STUN request bound to (local IP, port).
   */
  function ProbeLocal(attempt: int -> Outcome, ports: seq<int>): (r: ProbeEnd)
    ensures r == Exhausted <==> InUseBefore(attempt, ports, |ports|)
    ensures r.Resolved? ==> exists i :: 0 <= i < |ports| && InUseBefore(attempt, ports, i)
                                      && attempt(ports[i]) == Reply(r.external)
    ensures r.Aborted? ==> exists i :: 0 <= i < |ports| && InUseBefore(attempt, ports, i)
                                     && attempt(ports[i]) == Error(r.message) && !InUse(attempt(ports[i]))
  {
    if |ports| == 0 then Exhausted
    else match attempt(ports[0])
      case Reply(e) => Resolved(e)
      case Error(m) =>
        if Occurs(AddressInUse, m) then
          var rest := ProbeLocal(attempt, ports[1..]);
          assert forall j :: 1 <= j < |ports| ==> ports[j] == ports[1..][j - 1];
          rest
        else Aborted(m)
  }

  /**
    The converse: the first attempt that is not "address already in use"
    decides the probe, and nothing after it is consulted.
   */
  lemma {:induction false} FirstDecisiveAttemptDecides(attempt: int -> Outcome, ports: seq<int>, i: int)
    requires 0 <= i < |ports| && InUseBefore(attempt, ports, i) && !InUse(attempt(ports[i]))
    ensures attempt(ports[i]).Reply? ==> ProbeLocal(attempt, ports) == Resolved(attempt(ports[i]).external)
    ensures attempt(ports[i]).Error? ==> ProbeLocal(attempt, ports) == Aborted(attempt(ports[i]).message)
    ensures ProbeLocal(attempt, ports) == ProbeLocal(attempt, ports[..i + 1])
    decreases i
  {
    var prefix := ports[..i + 1];
    assert prefix[0] == ports[0];
    if i > 0 {
      var tail := ports[1..];
      assert InUse(attempt(ports[0]));
      assert ProbeLocal(attempt, ports) == ProbeLocal(attempt, tail);
      assert prefix[1..] == tail[..i];
      assert ProbeLocal(attempt, prefix) == ProbeLocal(attempt, tail[..i]);
      assert tail[i - 1] == ports[i];
      assert InUseBefore(attempt, tail, i - 1) by {
        forall j | 0 <= j < i - 1
          ensures InUse(attempt(tail[j]))
        {
          assert tail[j] == ports[j + 1];
        }
      }
      FirstDecisiveAttemptDecides(attempt, tail, i - 1);
    }
  }
}

=== FILE: profiles.dfy ===
/**
  The capability profiles offered for the two traffic directions: RTP header
  extensions and RTCP feedback types per media kind, plus the strict-ACK flag.
  The publisher profile is constant; the subscriber profile toggles between
  send-side bandwidth estimation (transport-wide congestion control) and
  receiver-side estimation (abs-send-time with REMB feedback).
 */
module Profiles {

  /** The RTP header extensions the profiles name. */
  datatype HeaderExtension =
    | SdesMid
    | SdesRtpStreamId
    | AudioLevel
    | TransportWideCC
    | FrameMarking
    | DependencyDescriptor
    | AbsSendTime

  /** RTCP feedback mechanisms. */
  datatype FeedbackType = TransportCC | Ccm | Nack | GoogRemb

  /** One `a=rtcp-fb` capability: a type and an optional parameter ("" when absent). */
  datatype Feedback = Feedback(kind: FeedbackType, parameter: string)

  const FullIntraRequest := Feedback(Ccm, "fir")
  const GenericNack := Feedback(Nack, "")
  const PictureLossIndication := Feedback(Nack, "pli")
  const TransportCCFeedback := Feedback(TransportCC, "")
  const RembFeedback := Feedback(GoogRemb, "")

  /** Header extensions and feedback per media kind, plus the strict-ACK flag. */
  datatype DirectionConfig = DirectionConfig(
    audioExtensions: seq<HeaderExtension>,
    videoExtensions: seq<HeaderExtension>,
    audioFeedback: seq<Feedback>,
    videoFeedback: seq<Feedback>,
    strictACKs: bool)

  /** Send-side estimation is signalled: the transport-wide sequence number and its feedback. */
  predicate SendSideSignalled(d: DirectionConfig)
  {
    TransportWideCC in d.videoExtensions && TransportCCFeedback in d.videoFeedback
  }

  /** Receiver-side estimation is signalled: abs-send-time and REMB feedback. */
  predicate ReceiverSideSignalled(d: DirectionConfig)
  {
    AbsSendTime in d.videoExtensions && RembFeedback in d.videoFeedback
  }

  /** Each estimator's header extension is offered exactly when its feedback is. */
  predicate EstimatorsToggledTogether(d: DirectionConfig)
  {
    && (TransportWideCC in d.videoExtensions <==> TransportCCFeedback in d.videoFeedback)
    && (AbsSendTime in d.videoExtensions <==> RembFeedback in d.videoFeedback)
  }

  /** Keyframe recovery (FIR, NACK, PLI) is offered for video. */
  predicate RecoversKeyframes(d: DirectionConfig)
  {
    FullIntraRequest in d.videoFeedback && GenericNack in d.videoFeedback && PictureLossIndication in d.videoFeedback
  }

  /**
    The publish direction: the server is always the dialed peer there, so it
    insists on strict ACKs, and it always uses send-side estimation.
   */
  function Publisher(): (p: DirectionConfig)
    ensures p.strictACKs
    ensures SendSideSignalled(p) && !ReceiverSideSignalled(p)
    ensures EstimatorsToggledTogether(p) && RecoversKeyframes(p)
    ensures p.audioExtensions == [SdesMid, SdesRtpStreamId, AudioLevel]
    ensures p.audioFeedback == [GenericNack]
  {
    DirectionConfig(
      [SdesMid, SdesRtpStreamId, AudioLevel],
      [SdesMid, SdesRtpStreamId, TransportWideCC, FrameMarking, DependencyDescriptor],
      [GenericNack],
      [TransportCCFeedback, FullIntraRequest, GenericNack, PictureLossIndication],
      true)
  }

  /**
    The subscribe direction: no audio capabilities, the dependency descriptor
    for video, and exactly one bandwidth estimator chosen by `useSendSideBWE`.
   */
  function Subscriber(strictACKs: bool, useSendSideBWE: bool): (s: DirectionConfig)
    ensures s.strictACKs == strictACKs
    ensures s.audioExtensions == [] && s.audioFeedback == []
    ensures SendSideSignalled(s) <==> useSendSideBWE
    ensures ReceiverSideSignalled(s) <==> !useSendSideBWE
    ensures !(TransportWideCC in s.videoExtensions && AbsSendTime in s.videoExtensions)
    ensures !(TransportCCFeedback in s.videoFeedback && RembFeedback in s.videoFeedback)
    ensures EstimatorsToggledTogether(s) && RecoversKeyframes(s)
    ensures |s.videoExtensions| == 2 && s.videoExtensions[0] == DependencyDescriptor
    ensures |s.videoFeedback| == 4
    ensures s.videoFeedback[0] == FullIntraRequest && s.videoFeedback[1] == GenericNack && s.videoFeedback[2] == PictureLossIndication
  {
    if useSendSideBWE then
      DirectionConfig([], [DependencyDescriptor, TransportWideCC], [],
                      [FullIntraRequest, GenericNack, PictureLossIndication, TransportCCFeedback], strictACKs)
    else
      DirectionConfig([], [DependencyDescriptor, AbsSendTime], [],
                      [FullIntraRequest, GenericNack, PictureLossIndication, RembFeedback], strictACKs)
  }
}

=== FILE: resolver.dfy ===
/**
  NAT 1:1 discovery (getNAT1to1IPsForConf): for every local IP that passes
  the IP filter a probe walks the candidate ports; the results that reach the
  collector before the deadline are folded into a map keyed by external IP,
  unresolved local IPs are mapped to themselves, and the map is rendered as
  "external/local" strings. Nothing collected means no mapping at all (nil).
 */
module Resolver {
  import opened Wrappers
  import opened Probing
  import opened Collection

  /** The configured STUN servers, or the built-in defaults when none are configured. */
  function StunServersOrDefault(configured: seq<string>, defaults: seq<string>): (r: seq<string>)
    ensures |configured| > 0 ==> r == configured
    ensures |configured| == 0 ==> r == defaults
  {
    if |configured| > 0 then configured else defaults
  }

  /**
    The probing side of one discovery run: the local IPs, the IP filter, the
    STUN servers, the STUN request `probe(servers, localIP, port)`, and the
    candidate ports.
   */
  datatype Run = Run(
    locals: seq<string>,
    admit: string -> bool,
    servers: seq<string>,
    probe: (seq<string>, string, int) -> Outcome,
    ports: seq<int>)

  /** How the probe of the `i`-th local IP ends. */
  function ProbeOf(run: Run, i: nat): ProbeEnd
    requires i < |run.locals|
  {
    ProbeLocal(port => run.probe(run.servers, run.locals[i], port), run.ports)
  }

  /** When a probe's result reaches the results channel, and which local IP it probed. */
  datatype Arrival = Arrival(at: nat, source: nat)

  /**
    What the probe named by arrival `a` sends over the channel: its (external,
    local) pair when its local IP passed the filter and the probe resolved,
    nothing otherwise.
   */
  function Deliver(run: Run, a: Arrival): (r: Option<Delivery>)
    ensures r.Some? ==> a.source < |run.locals| && run.admit(run.locals[a.source])
    ensures r.Some? ==> r.value.at == a.at && r.value.mapping.local == run.locals[a.source]
    ensures r.Some? ==> ProbeOf(run, a.source) == Resolved(r.value.mapping.external)
    ensures r.None? ==> a.source >= |run.locals| || !run.admit(run.locals[a.source]) || !ProbeOf(run, a.source).Resolved?
  {
    if a.source < |run.locals| && run.admit(run.locals[a.source]) && ProbeOf(run, a.source).Resolved? then
      Some(Delivery(a.at, Mapping(ProbeOf(run, a.source).external, run.locals[a.source])))
    else None
  }

  /** The channel contents: the deliveries of the scheduled arrivals, in arrival order. */
  function Deliveries(run: Run, schedule: seq<Arrival>): (r: seq<Delivery>)
    ensures |r| <= |schedule|
    ensures forall i :: 0 <= i < |r| ==> exists j :: 0 <= j < |schedule| && Deliver(run, schedule[j]) == Some(r[i])
  {
    if |schedule| == 0 then []
    else
      var rest := Deliveries(run, schedule[1..]);
      assert forall j :: 0 <= j < |schedule| - 1 ==> schedule[1..][j] == schedule[j + 1];
      match Deliver(run, schedule[0])
      case None => rest
      case Some(d) => [d] + rest
  }

  /** One unfolding of the channel contents. */
  lemma DeliveriesCons(run: Run, schedule: seq<Arrival>)
    requires |schedule| > 0
    ensures Deliver(run, schedule[0]).None? ==> Deliveries(run, schedule) == Deliveries(run, schedule[1..])
    ensures Deliver(run, schedule[0]).Some? ==>
              Deliveries(run, schedule) == [Deliver(run, schedule[0]).value] + Deliveries(run, schedule[1..])
  {
  }

  /** The values `f` yields along `xs`, in order: the shape of the channel. */
  function Yields<A, B>(f: A -> Option<B>, xs: seq<A>): seq<B>
  {
    if |xs| == 0 then []
    else match f(xs[0])
      case None => Yields(f, xs[1..])
      case Some(y) => [y] + Yields(f, xs[1..])
  }

  /** Of two positions that both yield, the earlier one's value comes first. */
  lemma {:induction false} YieldsInOrder<A, B>(f: A -> Option<B>, xs: seq<A>, j1: nat, j2: nat)
    requires j1 < j2 < |xs| && f(xs[j1]).Some? && f(xs[j2]).Some?
    ensures exists i1, i2 :: 0 <= i1 < i2 < |Yields(f, xs)|
                             && Yields(f, xs)[i1] == f(xs[j1]).value && Yields(f, xs)[i2] == f(xs[j2]).value
    decreases j1
  {
    var ys := Yields(f, xs);
    var rest := Yields(f, xs[1..]);
    assert xs[1..][j2 - 1] == xs[j2];
    if j1 == 0 {
      YieldsComplete(f, xs[1..], j2 - 1);
      var k :| 0 <= k < |rest| && rest[k] == f(xs[j2]).value;
      assert ys[0] == f(xs[0]).value && ys[k + 1] == rest[k];
    } else {
      assert xs[1..][j1 - 1] == xs[j1];
      YieldsInOrder(f, xs[1..], j1 - 1, j2 - 1);
      var i1, i2 :| 0 <= i1 < i2 < |rest| && rest[i1] == f(xs[j1]).value && rest[i2] == f(xs[j2]).value;
      if f(xs[0]).Some? {
        assert ys[i1 + 1] == rest[i1] && ys[i2 + 1] == rest[i2];
      }
    }
  }

  /** A position that yields has its value in the result. */
  lemma {:induction false} YieldsComplete<A, B>(f: A -> Option<B>, xs: seq<A>, j: nat)
    requires j < |xs| && f(xs[j]).Some?
    ensures f(xs[j]).value in Yields(f, xs)
    decreases j
  {
    if j > 0 {
      assert xs[1..][j - 1] == xs[j];
      YieldsComplete(f, xs[1..], j - 1);
    }
  }

  /** The channel contents are what the probes yield along the schedule. */
  lemma {:induction false} DeliveriesYield(run: Run, schedule: seq<Arrival>)
    ensures Deliveries(run, schedule) == Yields(a => Deliver(run, a), schedule)
    decreases |schedule|
  {
    if |schedule| > 0 {
      DeliveriesYield(run, schedule[1..]);
    }
  }

  /** Every arrival whose probe delivers puts its delivery on the channel. */
  lemma DeliveriesComplete(run: Run, schedule: seq<Arrival>, j: nat)
    requires j < |schedule|
    ensures Deliver(run, schedule[j]).Some? ==> Deliver(run, schedule[j]).value in Deliveries(run, schedule)
  {
    if Deliver(run, schedule[j]).Some? {
      DeliveriesYield(run, schedule);
      YieldsComplete(a => Deliver(run, a), schedule, j);
    }
  }

  /**
    The channel keeps schedule order: of two arrivals that both deliver, the
    earlier one's delivery comes first.
   */
  lemma DeliveriesInOrder(run: Run, schedule: seq<Arrival>, j1: nat, j2: nat)
    requires j1 < j2 < |schedule|
    ensures Deliver(run, schedule[j1]).Some? && Deliver(run, schedule[j2]).Some? ==>
              exists i1, i2 :: 0 <= i1 < i2 < |Deliveries(run, schedule)|
                               && Deliveries(run, schedule)[i1] == Deliver(run, schedule[j1]).value
                               && Deliveries(run, schedule)[i2] == Deliver(run, schedule[j2]).value
  {
    if Deliver(run, schedule[j1]).Some? && Deliver(run, schedule[j2]).Some? {
      DeliveriesYield(run, schedule);
      YieldsInOrder(a => Deliver(run, a), schedule, j1, j2);
    }
  }

  /** What the collector received before its deadline. */
  function Received(run: Run, schedule: seq<Arrival>): seq<Mapping>
  {
    Collected(Deliveries(run, schedule))
  }

  /** Some mapping of `xs` names external IP `k`, so a first one exists. */
  lemma {:induction false} FirstExists(xs: seq<Mapping>, k: string)
    requires k in Externals(xs)
    ensures exists i :: FirstFor(xs, k, i)
    decreases |xs|
  {
    if xs[0].external == k {
      assert FirstFor(xs, k, 0);
    } else {
      ExternalsCons(xs);
      FirstExists(xs[1..], k);
      var i :| FirstFor(xs[1..], k, i);
      assert xs[1..][i] == xs[i + 1];
      assert FirstFor(xs, k, i + 1) by {
        forall j | 0 <= j < i + 1
          ensures xs[j].external != k
        {
          if j > 0 {
            assert xs[j] == xs[1..][j - 1];
          }
        }
      }
    }
  }

  /** Only the empty sequence names no external IP. */
  lemma ExternalsEmpty(xs: seq<Mapping>)
    ensures Externals(xs) == {} <==> |xs| == 0
  {
    if |xs| > 0 {
      assert xs[0].external in Externals(xs);
    }
  }

  /**
    The final map: nothing when nothing was received; otherwise the deduplicated
    received pairs plus a self-mapping for every local IP not yet a value.
    Each entry is a self-mapping or the first received pair for its external IP.
   */
  function Nat1To1Mapping(locals: seq<string>, received: seq<Mapping>): (r: Option<map<string, string>>)
    ensures r.None? <==> |received| == 0
    ensures r.Some? ==> Externals(received) <= r.value.Keys
    ensures r.Some? ==> forall k :: k in r.value ==> k in Externals(received) || k in locals
    ensures r.Some? ==> forall k :: k in r.value ==>
              r.value[k] == k || exists i :: FirstFor(received, k, i) && r.value[k] == received[i].local
    ensures r.Some? && NoClash(Dedup(map[], received), locals) ==>
              && (forall l :: l in locals ==> l in r.value.Values)
              && forall k :: k in Externals(received) ==> exists i :: FirstFor(received, k, i) && r.value[k] == received[i].local
  {
    var collected := Dedup(map[], received);
    if |collected| == 0 then
      ExternalsEmpty(received);
      None
    else
      var r := MapUnresolved(collected, locals);
      assert forall k :: k in collected ==> exists i :: FirstFor(received, k, i) && collected[k] == received[i].local by {
        forall k | k in collected
          ensures exists i :: FirstFor(received, k, i) && collected[k] == received[i].local
        {
          FirstExists(received, k);
          var i :| FirstFor(received, k, i);
          DedupFirstWriterWins(map[], received, k, i);
        }
      }
      assert NoClash(collected, locals) ==>
               && (forall l :: l in locals ==> l in r.Values)
               && (forall k :: k in collected ==> r[k] == collected[k]) by {
        if NoClash(collected, locals) {
          MapUnresolvedCovers(collected, locals);
        }
      }
      Some(r)
  }

  /** Why discovery itself failed. */
  datatype ResolveError =
    | LocalAddressesUnavailable(message: string)  // enumerating local IPs failed
    | SamplerPanic                                // rand.Intn(0) on an empty port range

  /** What discovery takes from the outside world. */
  datatype World = World(
    localIPs: Result<seq<string>, string>,
    probe: (seq<string>, string, int) -> Outcome,
    draws: seq<int>,
    schedule: seq<Arrival>)

  /**
    getNAT1to1IPsForConf: the STUN servers default when none are configured,
    a failed local-IP enumeration and an empty sampled range are errors, and
    otherwise the result is nil or a non-empty set of "external/local" entries.
   */
  function GetNAT1to1IPs(stunServers: seq<string>, defaults: seq<string>, ports: PortConfig,
                         admit: string -> bool, world: World): (r: Result<Option<set<string>>, ResolveError>)
    requires DrawsFit(ports, world.draws)
    ensures world.localIPs.Failure? ==> r == Failure(LocalAddressesUnavailable(world.localIPs.error))
    ensures world.localIPs.Success? ==> (r == Failure(SamplerPanic) <==> CandidatePorts(ports, world.draws).None?)
    ensures r.Failure? ==> world.localIPs.Failure? || CandidatePorts(ports, world.draws).None?
    ensures r.Success? && r.value.Some? ==> |r.value.value| > 0
    ensures r.Success? ==>
              var run := Run(world.localIPs.value, admit, StunServersOrDefault(stunServers, defaults),
                             world.probe, CandidatePorts(ports, world.draws).value);
              (r.value.None? <==> |Received(run, world.schedule)| == 0)
    ensures r.Success? ==>
              var run := Run(world.localIPs.value, admit, StunServersOrDefault(stunServers, defaults),
                             world.probe, CandidatePorts(ports, world.draws).value);
              var m := Nat1To1Mapping(run.locals, Received(run, world.schedule));
              r.value == if m.None? then None else Some(Entries(m.value))
  {
    var servers := StunServersOrDefault(stunServers, defaults);
    match world.localIPs
    case Failure(e) => Failure(LocalAddressesUnavailable(e))
    case Success(locals) =>
      match CandidatePorts(ports, world.draws)
      case None => Failure(SamplerPanic)
      case Some(candidates) =>
        var run := Run(locals, admit, servers, world.probe, candidates);
        match Nat1To1Mapping(locals, Received(run, world.schedule))
        case None => Success(None)
        case Some(m) =>
          assert |m| > 0 by {
            var received := Received(run, world.schedule);
            assert received[0].external in Externals(received);
          }
          var k :| k in m;
          assert Entry(k, m[k]) in Entries(m);
          Success(Some(Entries(m)))
  }

  /** No two local IPs are equal. */
  ghost predicate DistinctLocals(locals: seq<string>)
  {
    forall i, j :: 0 <= i < j < |locals| ==> locals[i] != locals[j]
  }

  /** Each probe delivers at most once: no two arrivals name the same local IP index. */
  ghost predicate DistinctSources(schedule: seq<Arrival>)
  {
    forall i, j :: 0 <= i < j < |schedule| ==> schedule[i].source != schedule[j].source
  }

  /** No two mappings carry the same local IP. */
  ghost predicate DistinctMappedLocals(xs: seq<Mapping>)
  {
    forall i, j :: 0 <= i < j < |xs| ==> xs[i].local != xs[j].local
  }

  /** A local IP whose index no arrival names is never delivered. */
  lemma DeliveriesAvoid(run: Run, schedule: seq<Arrival>, src: nat)
    requires DistinctLocals(run.locals) && src < |run.locals|
    requires forall k :: 0 <= k < |schedule| ==> schedule[k].source != src
    ensures forall i :: 0 <= i < |Deliveries(run, schedule)| ==>
              Deliveries(run, schedule)[i].mapping.local != run.locals[src]
  {
  }

  /** No two deliveries carry the same local IP. */
  ghost predicate DistinctDelivered(ds: seq<Delivery>)
  {
    forall i, j :: 0 <= i < j < |ds| ==> ds[i].mapping.local != ds[j].mapping.local
  }

  /** Prepending a delivery whose local IP is new keeps deliveries distinct. */
  lemma DistinctDeliveredCons(d: Delivery, rest: seq<Delivery>)
    requires DistinctDelivered(rest)
    requires forall i :: 0 <= i < |rest| ==> rest[i].mapping.local != d.mapping.local
    ensures DistinctDelivered([d] + rest)
  {
  }

  /** With distinct local IPs and one delivery per probe, delivered local IPs are distinct. */
  lemma {:induction false} DeliveriesDistinct(run: Run, schedule: seq<Arrival>)
    requires DistinctLocals(run.locals) && DistinctSources(schedule)
    ensures DistinctDelivered(Deliveries(run, schedule))
    decreases |schedule|
  {
    if |schedule| > 0 {
      var tail := schedule[1..];
      assert DistinctSources(tail) by {
        forall i, j | 0 <= i < j < |tail|
          ensures tail[i].source != tail[j].source
        {
          assert tail[i] == schedule[i + 1] && tail[j] == schedule[j + 1];
        }
      }
      DeliveriesDistinct(run, tail);
      var rest := Deliveries(run, tail);
      var first := Deliver(run, schedule[0]);
      DeliveriesCons(run, schedule);
      if first.Some? {
        var src := schedule[0].source;
        assert forall k :: 0 <= k < |tail| ==> tail[k].source != src by {
          forall k | 0 <= k < |tail|
            ensures tail[k].source != src
          {
            assert tail[k] == schedule[k + 1];
          }
        }
        DeliveriesAvoid(run, tail, src);
        DistinctDeliveredCons(first.value, rest);
      }
    }
  }

  /** Folding mappings with fresh, distinct local IPs into an injective map keeps it injective. */
  lemma {:induction false} DedupInjective(m: map<string, string>, xs: seq<Mapping>)
    requires Injective(m) && DistinctMappedLocals(xs)
    requires forall i :: 0 <= i < |xs| ==> xs[i].local !in m.Values
    ensures Injective(Dedup(m, xs))
    decreases |xs|
  {
    if |xs| > 0 {
      var m' := Record(m, xs[0]);
      assert Injective(m') by {
        if xs[0].external !in m {
          forall a, b | a in m' && b in m' && m'[a] == m'[b]
            ensures a == b
          {
            if a != xs[0].external && b != xs[0].external {
              assert m[a] == m'[a] && m[b] == m'[b];
            }
          }
        }
      }
      assert forall i :: 0 <= i < |xs| - 1 ==> xs[1..][i] == xs[i + 1];
      assert forall i :: 0 <= i < |xs| - 1 ==> xs[1..][i].local !in m'.Values by {
        forall i | 0 <= i < |xs| - 1
          ensures xs[1..][i].local !in m'.Values
        {
          assert xs[1..][i].local != xs[0].local && xs[1..][i].local !in m.Values;
        }
      }
      DedupInjective(m', xs[1..]);
    }
  }

  /**
    Every local IP appears exactly once as a value of the final map, provided
    the local IPs are distinct, each probe delivers at most once, and no
    collected external IP is a local IP that no collected pair maps to.
   */
  lemma ResolvedExactlyOnce(run: Run, schedule: seq<Arrival>)
    requires DistinctLocals(run.locals) && DistinctSources(schedule)
    ensures var received := Received(run, schedule);
            |received| > 0 && NoClash(Dedup(map[], received), run.locals) ==>
              && Nat1To1Mapping(run.locals, received).Some?
              && Injective(Nat1To1Mapping(run.locals, received).value)
              && forall l :: l in run.locals ==> l in Nat1To1Mapping(run.locals, received).value.Values
  {
    var ds := Deliveries(run, schedule);
    var received := Collected(ds);
    DeliveriesDistinct(run, schedule);
    assert DistinctMappedLocals(received) by {
      forall i, j | 0 <= i < j < |received|
        ensures received[i].local != received[j].local
      {
        assert received[i] == ds[i].mapping && received[j] == ds[j].mapping;
      }
    }
    DedupInjective(map[], received);
    var collected := Dedup(map[], received);
    MapUnresolvedInjective(collected, run.locals);
    ExternalsEmpty(received);
  }

  /**
    The first arrival, when its probe delivers before the initial timeout, is
    always collected: its external IP becomes a key of the final map, bound to
    its local IP, unless that external IP is itself a local IP the self-mapping
    pass claims.
   */
  lemma FirstArrivalMapped(run: Run, schedule: seq<Arrival>)
    requires |schedule| > 0
    ensures var d := Deliver(run, schedule[0]);
            d.Some? && d.value.at < InitialTimeout ==>
              var m := Nat1To1Mapping(run.locals, Received(run, schedule));
              && m.Some?
              && d.value.mapping.external in m.value
              && (m.value[d.value.mapping.external] == d.value.mapping.local
                  || m.value[d.value.mapping.external] == d.value.mapping.external)
              && (d.value.mapping.external !in run.locals ==> m.value[d.value.mapping.external] == d.value.mapping.local)
  {
  }

  /**
    End to end: when the first arrival's probe delivers before the initial
    timeout and its external IP is not a local IP, discovery reports its
    "external/local" pair.
   */
  lemma FirstArrivalReported(stunServers: seq<string>, defaults: seq<string>, ports: PortConfig,
                             admit: string -> bool, world: World)
    requires DrawsFit(ports, world.draws)
    ensures var r := GetNAT1to1IPs(stunServers, defaults, ports, admit, world);
            r.Success? && |world.schedule| > 0 ==>
              var run := Run(world.localIPs.value, admit, StunServersOrDefault(stunServers, defaults),
                             world.probe, CandidatePorts(ports, world.draws).value);
              var d := Deliver(run, world.schedule[0]);
              d.Some? && d.value.at < InitialTimeout && d.value.mapping.external !in run.locals ==>
                r.value.Some? && Entry(d.value.mapping.external, d.value.mapping.local) in r.value.value
  {
  }

  /**
    When no admitted local IP's probe resolves, nothing reaches the collector
    and discovery yields nil rather than self-mappings.
   */
  lemma NoResolvedProbeMeansNil(run: Run, schedule: seq<Arrival>)
    requires forall i :: 0 <= i < |run.locals| && run.admit(run.locals[i]) ==> !ProbeOf(run, i).Resolved?
    ensures Received(run, schedule) == []
    ensures Nat1To1Mapping(run.locals, Received(run, schedule)) == None
  {
  }
}

=== FILE: scenarios.dfy ===
/**
  Concrete discovery runs: the two-interface run where one probe answers
  quickly and the other never does, and a run in which the self-mapping pass
  overwrites a discovered pair.
 */
module Scenarios {
  import opened Wrappers
  import opened Probing
  import opened Collection
  import opened Resolver

  /** Local 10.0.0.1 is behind NAT 203.0.113.5; every other probe times out. */
  function NatProbe(servers: seq<string>, local: string, port: int): Outcome
  {
    if local == "10.0.0.1" then Reply("203.0.113.5") else Error("i/o timeout")
  }

  /** A run over `locals` without IP filter, probing only the wildcard port. */
  function ExampleRun(locals: seq<string>): Run
  {
    Run(locals, (ip: string) => true, ["stun1:3478"], NatProbe, [0])
  }

  /** When 10.0.0.1 is the first local IP and its result arrives after 200 ms, it is received. */
  lemma FirstLocalReceived(locals: seq<string>)
    requires |locals| > 0 && locals[0] == "10.0.0.1"
    ensures Received(ExampleRun(locals), [Arrival(200, 0)]) == [Mapping("203.0.113.5", "10.0.0.1")]
  {
    var run := ExampleRun(locals);
    var attempt := (port: int) => run.probe(run.servers, run.locals[0], port);
    assert run.probe(run.servers, "10.0.0.1", 0) == Reply("203.0.113.5");
    assert attempt(run.ports[0]) == Reply("203.0.113.5");
    FirstDecisiveAttemptDecides(attempt, run.ports, 0);
    assert ProbeOf(run, 0) == Resolved("203.0.113.5");
    var d := Delivery(200, Mapping("203.0.113.5", "10.0.0.1"));
    assert Deliver(run, Arrival(200, 0)) == Some(d);
    assert Deliveries(run, [Arrival(200, 0)]) == [d];
  }

  /** The fold of that single result. */
  lemma SingleResultFold()
    ensures Dedup(map[], [Mapping("203.0.113.5", "10.0.0.1")]) == map["203.0.113.5" := "10.0.0.1"]
  {
  }

  /** The final map of the two-interface run: the discovered pair plus a self-mapping. */
  lemma OneAnswerOneSilentMapping()
    ensures Nat1To1Mapping(["10.0.0.1", "10.0.0.2"], [Mapping("203.0.113.5", "10.0.0.1")])
            == Some(map["203.0.113.5" := "10.0.0.1", "10.0.0.2" := "10.0.0.2"])
  {
  }

  /** Its rendering as "external/local" strings. */
  lemma OneAnswerOneSilentEntries()
    ensures Entries(map["203.0.113.5" := "10.0.0.1", "10.0.0.2" := "10.0.0.2"])
            == {"203.0.113.5/10.0.0.1", "10.0.0.2/10.0.0.2"}
  {
    var final := map["203.0.113.5" := "10.0.0.1", "10.0.0.2" := "10.0.0.2"];
    assert final.Keys == {"203.0.113.5", "10.0.0.2"};
    assert Entry("203.0.113.5", "10.0.0.1") == "203.0.113.5/10.0.0.1";
    assert Entry("10.0.0.2", "10.0.0.2") == "10.0.0.2/10.0.0.2";
  }

  /**
    The first probe answers after 200 ms and the second never does: the
    unresolved local IP is mapped to itself.
   */
  lemma OneAnswerOneSilent()
    ensures GetNAT1to1IPs(["stun1:3478"], [], PortConfig(0, 0, 0), (ip: string) => true,
                          World(Success(["10.0.0.1", "10.0.0.2"]), NatProbe, [], [Arrival(200, 0)]))
            == Success(Some({"203.0.113.5/10.0.0.1", "10.0.0.2/10.0.0.2"}))
  {
    var locals := ["10.0.0.1", "10.0.0.2"];
    assert CandidatePorts(PortConfig(0, 0, 0), []) == Some([0]);
    assert StunServersOrDefault(["stun1:3478"], []) == ["stun1:3478"];
    FirstLocalReceived(locals);
    OneAnswerOneSilentMapping();
    OneAnswerOneSilentEntries();
  }

  /**
    A clash: 10.0.0.1 is discovered behind 203.0.113.5, which is also a local
    IP whose own probe failed. Its self-mapping overwrites the discovered pair,
    and 10.0.0.1 no longer appears in the result.
   */
  lemma SelfMappingOverwritesDiscovery()
    ensures var locals := ["10.0.0.1", "203.0.113.5"];
            var m := Nat1To1Mapping(locals, Received(ExampleRun(locals), [Arrival(200, 0)]));
            && m == Some(map["203.0.113.5" := "203.0.113.5"])
            && "10.0.0.1" !in m.value.Values
  {
    var locals := ["10.0.0.1", "203.0.113.5"];
    FirstLocalReceived(locals);
    SingleResultFold();
    var collected := map["203.0.113.5" := "10.0.0.1"];
    var final := map["203.0.113.5" := "203.0.113.5"];
    assert MapUnresolved(collected, locals) == final by {
      assert "10.0.0.1" in collected.Values;
      assert SelfMap(collected, "10.0.0.1") == collected;
      assert collected["203.0.113.5"] != "203.0.113.5";
      assert "203.0.113.5" !in collected.Values;
      assert SelfMap(collected, "203.0.113.5") == final;
      assert locals[1..][1..] == [];
    }
    assert final.Values == {"203.0.113.5"};
  }
}

=== FILE: wrappers.dfy ===
/** Failure-carrying datatypes shared by the model. */
module Wrappers {

  /** A value that may be absent; `None` plays the role of Go's `nil`. */
  datatype Option<+T> = None | Some(value: T)

  /** Either a computed value or the error that stopped the computation. */
  datatype Result<+T, +E> = Success(value: T) | Failure(error: E)
}
